=== FILE: README.md ===
# workflow (`wf`) — a Dafny model of its decision core

`wf` is a small command-line tool that starts work on a Jira ticket: it looks
up the issue, proposes a branch name `KEY-slug-of-the-summary`, creates that
branch from a configured base branch and checks it out; it can also push the
current branch to `origin` with the keys of the running SSH agent. Before any
of that it resolves two configuration scopes — the global one (Jira host, user
name, token) and the per-repository one (the base branch) — initializing them
interactively when they are missing.

This project models that core as pure functions over immutable data:

- `Setup` (src/init.rs): the base-branch preference order used by
  `sort_branches`, and the values the initialization flows build from prompt
  answers.
- `Git` (src/git.rs): the branch resolver over an abstract repository state
  (local branches, commits with their trees, upstreams, HEAD, working tree,
  remotes). `create_and_checkout_branch` is the four-step, non-atomic sequence
  of the source with one typed error per step and no rollback; `push` checks
  HEAD and `origin` and hands the refspec `refs/heads/B:refs/heads/B` to the
  transport.
- `Commands` (src/command.rs): `command_init_config`, `command_init_repo` and
  `command_start` as decision functions.
- `Program` (src/main.rs): `load_config`, `load_repo_config`, the dispatch of
  `run` with its `auto_init` flag, and the exit status of `main`.
- `Configuration` (src/config.rs), `Errors` (src/errors.rs), `AdaptErr`
  (src/adapt_err.rs), `Lib` (src/lib.rs): the configuration records and their
  validators, the closed error union and its messages, the error-lifting
  combinator, and `repeat_until_ok`.
- `Prompt`, `Jira`, `Wrappers`, `Strings`: the oracle view of interactive
  prompts, the issue-tracker types, `Option`/`Result`, and substring
  containment and suffixes.

Everything the program asks of the outside world is a parameter: prompt
answers, what the configuration stores return, the issue lookup, `Url::parse`,
the slug function `to_branch_name`, the libgit2 step failures that the
repository state does not decide, and the push transport. A text prompt is a
`TextSession`: the lines the user submits and how the prompt ends if none is
accepted. An empty line stands for the prompt's default when it has one, and
the validators judge that effective answer.

The model keeps the program's behaviour where it departs from what its own
prompts and names announce:

- The prompt asks "do you want to continue and overwrite it?", yet answering
  *yes* returns the existing configuration and answering *no* overwrites it
  (src/command.rs:12-16 and 28-32).
- `command_init_config` builds `new_config` and then saves `config`, the value
  it was given (src/command.rs:19-20). An auto-initialized global
  configuration is therefore never persisted.
- Between the two "not configured" checks, `command_start` also rejects a
  tracker host that is not a URL, with a Jira error (src/command.rs:53-57).
- `push` first fails with `CannotGetHead` when HEAD does not resolve
  (src/git.rs:85). An unborn HEAD, on a branch that does not exist yet, is one
  such case.
- `command_init_repo` checks for a working directory only after the branch
  prompt (src/command.rs:38-44).
- Under `init`, `load_repo_config` may itself run the repository
  initialization, and `command_init_repo` then runs again on its result
  (src/main.rs:55-57). Each of the two runs has its own prompt answers and
  its own answer from the repository store.

src/git.rs defines `GitRepository` as a struct, while src/command.rs and
src/main.rs use a `GitRepository` trait with `branches()` and `workdir()`.
The model's `Git.Handle` therefore carries the repository state, its working
directory and the answer of the branch listing, whose errors are taken to be
`GitError`s. `RepoConfig`, its `load`/`save` and `to_branch_name` are defined
outside the modelled files. They are modelled from their uses: a base branch
that is present or absent, a store like the global one, and a slug parameter.

## Model

| member | source | states |
|---|---|---|
| `AdaptErr.Adapt` | src/adapt_err.rs:10-16 | `Ok` passes through unchanged, `Err(e)` becomes `Err(from(e))`, and the result is `Ok` exactly when the input is |
| `AdaptErr.AdaptIdentity` | src/adapt_err.rs:15 | adapting through the identity conversion is the identity on results |
| `AdaptErr.AdaptComposes` | src/adapt_err.rs:2-19 | two successive lifts equal one lift through the composed conversion |
| `AdaptErr.AdaptUndone` | src/adapt_err.rs:15 | a lift through a conversion with a left inverse can be undone, so no information is lost |
| `Prompt.AskText` | src/init.rs:44-63 | a validated text prompt returns an accepted answer, which was typed or is the default; it fails with the session's end exactly when no line is accepted |
| `Prompt.AskTextFirstAccepted` | src/init.rs:44-48 | the first accepted line decides the answer |
| `Prompt.AskTextSkipsRejected` | src/init.rs:52-56 | a rejected line is asked again, as if it had never been typed |
| `Jira.Connect` | src/jira.rs:91-99 | building the tracker handle fails with `InvalidUrl` exactly when the host does not parse, and otherwise keeps host and credentials |
| `Configuration.Load` | src/config.rs:46-48 | loading returns the stored value, or the store's error wrapped as a configuration error |
| `Configuration.Save` | src/config.rs:50-52 | saving succeeds exactly when the store accepts, else reports the store's error |
| `Git.Discover` | src/git.rs:31-35 | discovery succeeds exactly when a repository is found; every failure is reported as `CannotOpenRepository` |
| `Git.CreateAndCheckoutBranch` | src/git.rs:37-82 | the guards in order (missing base, base tip not a commit, existing name) fail leaving the state unchanged; a refused creation reports `CannotCreateBranch` and changes nothing; once the ref is written it stays on the base tip whatever fails later; a failed upstream write reports `CannotCreateBranch`; a failed tree lookup, checkout or HEAD move reports `CannotCheckoutBranch` with that step's own cause; the working tree changes only by the checkout, to the base tip's tree; success exactly when every step goes through, with the branch tracking itself and HEAD on it; HEAD moves only on success; no other branch or upstream changes |
| `Git.Push` | src/git.rs:84-116 | a HEAD that does not resolve (broken, or unborn on a branch that does not exist) fails with `CannotGetHead`, then a detached HEAD with `NotInABranch`, then a missing `origin` with `OriginNotFound`, all before any network step; otherwise `refs/heads/B:refs/heads/B` for the current branch B is pushed and the transport's error is reported as `CannotPushToOrigin` |
| `Git.Message` | src/git.rs:10-27 | no error message is empty, and a libgit2 cause is quoted at the end of its message |
| `Git.MessageNamesBranch` | src/git.rs:12-19 | every branch-related error message contains the branch name |
| `Git.CreatePreservesConsistency` | src/git.rs:52-81 | whatever step fails, HEAD still names a live branch and every tracked branch exists |
| `Git.CreateNeverOverwrites` | src/git.rs:52-55 | creating an existing branch fails and changes nothing |
| `Git.PushAfterCreate` | src/git.rs:57-116 | after a successful creation the branch tracks itself locally and a push sends it to its namesake on `origin` |
| `Errors.JiraMessage` | src/jira.rs:56-68 | no tracker error message is empty, and the HTTP or URL error behind it is quoted at the end |
| `Errors.ConfigMessage` | src/config.rs:28-34 | a configuration error message ends with the store's or the prompt's own message |
| `Errors.Message` | src/errors.rs:8-21 | the not-configured message tells the user to run init; a git error reaches the user as the git message behind a `Git error: ` prefix, and a failed branch operation names its branch there |
| `Errors.WrappingsAreInjective` | src/errors.rs:10-19 | each collaborator error is wrapped unchanged and recoverable; distinct errors stay distinct |
| `Errors.PlainErrorsAreDistinct` | src/errors.rs:8-21 | the two payload-free errors differ from each other and from every wrapped error |
| `Lib.RepeatUntilOk` | src/lib.rs:10-19 | returns the value of the first `Ok` call and how many calls were made; every earlier call failed |
| `Lib.RepeatReturnsResult` | src/lib.rs:25-29 | a closure returning `Ok(1)` is called once and 1 is returned |
| `Lib.RepeatReturnsResultEventually` | src/lib.rs:31-43 | the counting closure fails six times, then 6 is returned on the seventh call |
| `Setup.BranchCmp` | src/init.rs:92-100 | the comparator by tiers: a name of a lower tier ("develop", then "main"/"master", then the rest) compares `Less`, of a higher tier `Greater`; two names of the first two tiers always compare `Less`, two other names lexicographically |
| `Setup.NotAfterByRank` | src/init.rs:92-100 | the comparator reads as tiers: "develop", then "main"/"master" (unordered among themselves), then all other names lexicographically |
| `Setup.NotAfterAntisymmetric` | src/init.rs:96 | two names that may each precede the other are equal or are "main" and "master" |
| `Setup.SortBranches` | src/init.rs:89-103 | the output is a permutation of the input and no element is put after one the comparator places later |
| `Setup.DevelopFirst` | src/init.rs:94-95 | "develop" comes before "main" and "master" |
| `Setup.PrivilegedFirst` | src/init.rs:96-97 | each of develop/main/master comes before every other name |
| `Setup.OthersAscending` | src/init.rs:98 | the other names are in ascending lexicographic order |
| `Setup.SortedPermutationUnique` | src/init.rs:92-100 | a list without both "main" and "master" has exactly one sorted permutation |
| `Setup.SortBranchesUnique` | src/init.rs:89-103 | any sorted permutation of an input without both "main" and "master" is the sort's output |
| `Setup.MainMasterUnordered` | src/init.rs:96 | "main" and "master" each compare `Less` than the other, so both orders are sorted in the comparator's weak sense and neither in a stable sort's sense |
| `Setup.SortBranchesPlain` | src/init.rs:111-117 | ["d","b","a","c"] sorts to ["a","b","c","d"] |
| `Setup.SortBranchesMasterFirst` | src/init.rs:119-125 | ["d","master","a","c"] sorts to ["master","a","c","d"] |
| `Setup.SortBranchesMainFirst` | src/init.rs:127-133 | ["d","main","a","c"] sorts to ["main","a","c","d"] |
| `Setup.SortBranchesDevelopMainFirst` | src/init.rs:135-141 | ["main","develop","a","c"] sorts to ["develop","main","a","c"] |
| `Setup.InitConfig` | src/init.rs:24-68 | the global initialization succeeds exactly when each of the three prompts gets a line it accepts; then its tracker section passes the validators (a non-empty URL, user name and token of at least 3 characters), host and user were typed or are the old values, and the token was typed; otherwise the first prompt without an accepted line (host, then user, then token) ends it with that prompt's own error |
| `Setup.ConfigInitIsSet` | src/config.rs:103-105 | once each prompt accepts an answer, the initialization succeeds with a set configuration |
| `Setup.InitConfigKeepsOldOnEnter` | src/init.rs:40-56 | pressing enter at the host and user prompts keeps valid old values |
| `Setup.InitConfigTokenNeverPrefilled` | src/init.rs:60-63 | an empty line never stands for a token |
| `Setup.InitRepoConfig` | src/init.rs:70-87 | the repository configuration holds the branch picked from the sorted list, one of the given branches; a cancelled pick is a prompt error |
| `Commands.CommandInitConfig` | src/command.rs:11-22 | set and answered yes: old value returned, nothing stored; otherwise the initialization runs, the old value is what gets stored, and the new one is returned when the store accepts |
| `Commands.CommandInitRepo` | src/command.rs:24-45 | set and answered yes keeps the old value; otherwise a listing error is a git error and a cancelled pick a configuration error; with a working directory the picked base branch is stored, and returned when the store accepts, while a refused store is a configuration error; without one nothing is stored and the run ends in `NoGitWorkingDirectory`; a stored base branch is among the listed ones |
| `Commands.DefaultBranchName` | src/command.rs:67 | the proposed name is the issue key, a hyphen, then the slug of the summary |
| `Commands.CommandStart` | src/command.rs:47-82 | a missing tracker section, an unparsable host or a missing base branch fail before any lookup and touch nothing; lookup and prompt errors propagate; otherwise exactly one create-and-checkout of the edited name from the base branch runs and its error is wrapped |
| `Commands.InitConfigUnsetNeverAsks` | src/command.rs:12-15 | with no global configuration the overwrite answer makes no difference |
| `Commands.InitRepoUnsetNeverAsks` | src/command.rs:28-31 | with no repository configuration the overwrite answer makes no difference |
| `Commands.InitConfigStoresStaleValue` | src/command.rs:19-21 | initializing an unset configuration returns a set one but stores the unset one |
| `Commands.StartSucceeds` | src/command.rs:75 | a successful start has HEAD on the edited name, created on the base tip and tracking itself |
| `Commands.StartWithDefaultName` | src/command.rs:67-75 | accepting the proposal creates the branch `key-slug(summary)` |
| `Commands.AsWrittenKeepsOnYes` | src/command.rs:12-16 | as written, answering yes to "overwrite?" returns the old configuration untouched |
| `Commands.CommandInitConfigIntended` | src/command.rs:11-22 | corrected: a set configuration answered no is kept; an unset or confirmed one is initialized, the new value is stored, and it is returned when the store accepts, while a refused store is a configuration error; a cancelled initialization stores nothing |
| `Commands.CommandInitRepoIntended` | src/command.rs:24-45 | corrected: answering no keeps the old value; yes reinitializes |
| `Commands.IntendedOverwriteOnYes` | src/command.rs:12-21 | corrected: answering yes runs the initialization and stores its value |
| `Program.AutoInit` | src/main.rs:49 | loading may initialize for every command except init |
| `Program.LoadConfig` | src/main.rs:24-33 | the initialization runs exactly when the loaded configuration is unset and auto-initialization is allowed; otherwise the loaded value comes back unchanged |
| `Program.LoadRepoConfig` | src/main.rs:35-45 | no working directory fails before any load; an unset repository configuration is always initialized; a set one is returned unchanged |
| `Program.Run` | src/main.rs:47-82 | argument errors stop everything; only a push reaches the git remote and it leaves the repository as found; only a start changes the repository; push, no-op and test never store a repository configuration |
| `Program.MainExit` | src/main.rs:14-21 | exit status 0 exactly on success; a failure writes its message to the error stream |
| `Program.AutoInitUnlessInit` | src/main.rs:49 | loading an unset configuration leaves it alone exactly for the init command |
| `Program.PushIgnoresRepoConfig` | src/main.rs:73-75 | a push does not depend on the repository configuration store or its prompts |
| `Program.PushInitializesGlobalFirst` | src/main.rs:49-50 | with nothing configured, a push first runs the global initialization, and a cancelled prompt stops it before the repository is opened |
| `Program.StartNeedsRepository` | src/main.rs:67-70 | a start outside a repository fails with `CannotOpenRepository` and stores nothing |
| `Program.InitSkipsMissingRepository` | src/main.rs:53-58 | init outside a repository succeeds or fails as the global initialization does and stores no repository configuration |
| `Program.InitReplacesUnloadableRepoConfig` | src/main.rs:55-57 | under init, a repository configuration that cannot be loaded is replaced by the unset one and initialized |
| `Program.AutoInitNeverPersists` | src/main.rs:27-29 | auto-initializing an unset global configuration stores only the unset value |

## Left out

- Prompts and banners: what `inquire` renders and reads, and every `println!`, are not modelled. Answers are parameters.
- The validators are taken to judge the effective answer: the typed line, or the default for an empty line.
- `inquire` errors and messages are opaque.
- Slug normalization: `to_branch_name` is not part of this model. It is the parameter `slug`, and no property depends on its definition.
- `Url::parse` is the parameter `urlParse`. The same function decides the host validator and `JiraServer::try_from`.
- The Jira HTTP exchange (src/jira.rs) is the `lookup` oracle returning an issue or a `JiraError`. `JiraServer::from` duplicates `try_from` and is not modelled separately.
- Persistence through `confy`: the stores' answers are parameters. A run records the values it hands to each store, not files on disk.
- SSH-agent authentication and the real network push: the transport's answer is a parameter. The `unwrap` panic on a URL without a user name (src/git.rs:102-107) is not modelled.
- libgit2 internals: ref creation, checkout and HEAD moves are abstract state transitions. Failures the state does not decide are the `CheckoutFaults` parameter.
- A failed checkout leaves the modelled working tree unchanged, although libgit2 may have written part of it.
- The upward directory search of `Repository::discover`: the discovered repository, if any, is a parameter.
- `branch.get().name()` and `reference.name()` returning `None` (src/git.rs:70-75, 95-100) happens only for ref names that are not valid UTF-8. Branch names here are Dafny strings, so these branches are not modelled.
- Command-line parsing (src/cli.rs): the parsed command or clap's error is a parameter. The hidden test subcommands and `noop` only print.
- tokio and `async`: the control flow is sequential and modelled as such.
- `Setup.SortBranches` is a stable insertion sort. With both "main" and "master" present, the order the source's `sort_by` produces is not determined by its comparator. No contract claims one; the model happens to keep their input order.
- `Config::init` (src/config.rs:62-106) is textually the same flow as `init_config` and is modelled by `Setup.InitConfig`.
- `Program.Run`: its own contract states the dispatch-wide facts only. The per-command behaviour is stated by the `Program` lemmas above and by the contracts of the functions `Run` composes.

## Findings

| source | as written | input that shows it | evidently intended | confidence | as-written member | corrected member |
|---|---|---|---|---|---|---|
| src/command.rs:12-16 | answering yes to "do you want to continue and overwrite it?" returns the existing global configuration; answering no overwrites it | a set configuration with the confirmation answered yes | yes overwrites, no keeps | high; not executed | `Commands.AsWrittenKeepsOnYes` | `Commands.CommandInitConfigIntended`, `Commands.IntendedOverwriteOnYes` |
| src/command.rs:19-20 | `config.save()` stores the configuration passed in, not `new_config` | an unset configuration and prompts that all accept | the new configuration is stored | high; not executed | `Commands.InitConfigStoresStaleValue` | `Commands.CommandInitConfigIntended` |
| src/command.rs:28-32 | answering yes to the repository overwrite question returns the existing repository configuration | a set repository configuration with the confirmation answered yes | yes reinitializes, no keeps | high; not executed | `Commands.CommandInitRepo` | `Commands.CommandInitRepoIntended` |

`Program.Run` composes the as-written commands, since it models the program as
it stands; `Program.AutoInitNeverPersists` shows the second finding's effect
on every command but init.

=== FILE: adapt_err.dfy ===
/** The generic error-lifting combinator of src/adapt_err.rs: a `Result<T, E0>`
    becomes a `Result<T, E1>` through the declared conversion `E0 -> E1`
    (Rust's `From`/`Into`), leaving the success value alone. */
module AdaptErr {
  import opened Wrappers

  function Adapt<T, E0, E1>(r: Result<T, E0>, from: E0 -> E1): (a: Result<T, E1>)
    ensures a.Ok? <==> r.Ok?
    ensures r.Ok? ==> a.value == r.value
    ensures r.Err? ==> a.error == from(r.error)
  {
    match r
    case Ok(t) => Ok(t)
    case Err(e) => Err(from(e))
  }

  /** With the identity conversion (`From<T> for T`), adapting changes nothing. */
  lemma AdaptIdentity<T, E>(r: Result<T, E>)
    ensures Adapt(r, (e: E) => e) == r
  {
  }

  /** Two successive lifts are one lift through the composed conversion. */
  lemma AdaptComposes<T, E0, E1, E2>(r: Result<T, E0>, f: E0 -> E1, g: E1 -> E2)
    ensures Adapt(Adapt(r, f), g) == Adapt(r, (e: E0) => g(f(e)))
  {
  }

  /** A lift through a conversion that has a left inverse can be undone: no
      information about the original result is lost. */
  lemma AdaptUndone<T, E0, E1>(r: Result<T, E0>, f: E0 -> E1, back: E1 -> E0)
    requires forall e :: back(f(e)) == e
    ensures Adapt(Adapt(r, f), back) == r
  {
  }
}

=== FILE: commands.dfy ===
/** The commands of src/command.rs as decision functions. Prompt answers, the
    store's answers, the issue lookup and the slug are parameters. Two
    behaviours are kept as written (see the corrected definitions at the end):
    answering yes to "overwrite?" keeps the old configuration, and the global
    initialization stores the old configuration instead of the new one. */
module Commands {
  import opened Wrappers
  import opened AdaptErr
  import opened Prompt
  import opened Configuration
  import opened Errors
  import Jira
  import Git
  import Setup

  /** The answers of one global initialization: the overwrite confirmation
      (asked only when a configuration is set) and the three text prompts. */
  datatype GlobalAnswers = GlobalAnswers(overwrite: Result<bool, InquireError>, host: TextSession, user: TextSession, token: TextSession)

  /** The answers of one repository initialization: the overwrite confirmation
      and the index picked among the offered base branches. */
  datatype RepoAnswers = RepoAnswers(overwrite: Result<bool, InquireError>, pick: Result<nat, InquireError>)

  /** A command's result and the value it handed to the store, if any. */
  datatype Outcome<T> = Outcome(result: Result<T, WfError>, saved: Option<T>)

  /** The state a start leaves the repository in, with its result. */
  datatype StartOutcome = StartOutcome(result: Result<(), WfError>, repo: Git.Repo)

  /** The Select prompt only answers with an index of the list it shows. */
  predicate PickInRange(answers: RepoAnswers, listing: Result<seq<string>, Git.GitError>)
  {
    answers.pick.Ok? && listing.Ok? ==> answers.pick.value < |listing.value|
  }

  /** `command_init_config`, as written. */
  function CommandInitConfig(config: Config, answers: GlobalAnswers, urlParse: string -> Option<Jira.ParseError>,
                             storeFailure: Option<ConfyError>): (o: Outcome<Config>)
    // asked and answered yes: the old configuration comes back, nothing is stored
    ensures config.IsSet() && answers.overwrite == Ok(true) ==> o == Outcome(Ok(config), None)
    ensures config.IsSet() && answers.overwrite.Err? ==> o == Outcome(Err(InputFailure(answers.overwrite.error)), None)
    // whatever is stored is the configuration passed in
    ensures o.saved.Some? ==> o.saved.value == config
    ensures o.saved.None? && o.result.Err? ==> o.result.error.InputFailure? || o.result.error.ConfigFailure?
    // otherwise the initialization runs and its value is returned once stored
    ensures (config.IsNotSet() || answers.overwrite == Ok(false)) ==>
              var entered := Setup.InitConfig(Some(config), answers.host, answers.user, answers.token, urlParse);
              && (entered.Err? ==> o == Outcome(Err(ConfigFailure(entered.error)), None))
              && (entered.Ok? ==> o.saved == Some(config))
              && (entered.Ok? && storeFailure.None? ==> o.result == Ok(entered.value))
              && (entered.Ok? && storeFailure.Some? ==> o.result == Err(ConfigFailure(FromConfy(storeFailure.value))))
  {
    if config.IsSet() && answers.overwrite.Err? then Outcome(Err(InputFailure(answers.overwrite.error)), None)
    else if config.IsSet() && answers.overwrite.value then Outcome(Ok(config), None)
    else
      match Setup.InitConfig(Some(config), answers.host, answers.user, answers.token, urlParse)
      case Err(e) => Outcome(Err(ConfigFailure(e)), None)
      case Ok(newConfig) =>
        match Save(storeFailure)
        case Err(e) => Outcome(Err(ConfigFailure(e)), Some(config))
        case Ok(_) => Outcome(Ok(newConfig), Some(config))
  }

  /** `command_init_repo`, as written: the working directory is checked only
      after the prompts, and the new configuration is stored under it. */
  function CommandInitRepo(repoConfig: RepoConfig, repo: Git.Handle, answers: RepoAnswers,
                           storeFailure: Option<ConfyError>): (o: Outcome<RepoConfig>)
    requires PickInRange(answers, repo.listing)
    ensures repoConfig.IsSet() && answers.overwrite == Ok(true) ==> o == Outcome(Ok(repoConfig), None)
    ensures repoConfig.IsSet() && answers.overwrite.Err? ==> o == Outcome(Err(InputFailure(answers.overwrite.error)), None)
    ensures (repoConfig.IsNotSet() || answers.overwrite == Ok(false)) && repo.listing.Err? ==>
              o == Outcome(Err(GitFailure(repo.listing.error)), None)
    // nothing is stored without a working directory, and the prompts were in vain
    ensures repo.workdir.None? ==> o.saved.None?
    ensures && repo.workdir.None? && (repoConfig.IsNotSet() || answers.overwrite == Ok(false))
            && repo.listing.Ok? && answers.pick.Ok?
            ==> o.result == Err(NoGitWorkingDirectory)
    ensures repo.workdir.None? && o.result.Ok? ==> o.result.value == repoConfig
    // what is stored is what is returned: a base branch among the listed ones
    ensures o.saved.Some? ==> repo.listing.Ok? && o.saved.value.IsSet() && o.saved.value.branches.value.dev in repo.listing.value
    ensures o.saved.Some? && o.result.Ok? ==> o.result.value == o.saved.value
    ensures o.result.Ok? && o.saved.None? ==> o.result.value == repoConfig
    // otherwise the branch prompt runs; with a working directory its value is
    // stored, and returned once stored
    ensures (repoConfig.IsNotSet() || answers.overwrite == Ok(false)) && repo.listing.Ok? ==>
              var entered := Setup.InitRepoConfig(Some(repoConfig), repo.listing.value, answers.pick);
              && (entered.Err? ==> o == Outcome(Err(ConfigFailure(entered.error)), None))
              && (entered.Ok? && repo.workdir.None? ==> o == Outcome(Err(NoGitWorkingDirectory), None))
              && (entered.Ok? && repo.workdir.Some? ==> o.saved == Some(entered.value))
              && (entered.Ok? && repo.workdir.Some? && storeFailure.None? ==> o.result == Ok(entered.value))
              && (entered.Ok? && repo.workdir.Some? && storeFailure.Some? ==>
                    o.result == Err(ConfigFailure(FromConfy(storeFailure.value))))
  {
    if repoConfig.IsSet() && answers.overwrite.Err? then Outcome(Err(InputFailure(answers.overwrite.error)), None)
    else if repoConfig.IsSet() && answers.overwrite.value then Outcome(Ok(repoConfig), None)
    else
      match repo.listing
      case Err(e) => Outcome(Err(GitFailure(e)), None)
      case Ok(branches) =>
        match Setup.InitRepoConfig(Some(repoConfig), branches, answers.pick)
        case Err(e) => Outcome(Err(ConfigFailure(e)), None)
        case Ok(newConfig) =>
          match repo.workdir
          case None => Outcome(Err(NoGitWorkingDirectory), None)
          case Some(_) =>
            match Save(storeFailure)
            case Err(e) => Outcome(Err(ConfigFailure(e)), Some(newConfig))
            case Ok(_) => Outcome(Ok(newConfig), Some(newConfig))
  }

  /** The branch name proposed for an issue: its key, a hyphen, the slug of its summary. */
  function DefaultBranchName(issue: Jira.Issue, slug: string -> string): (name: string)
    ensures |name| == |issue.key| + 1 + |slug(issue.summary)|
    ensures name[..|issue.key|] == issue.key && name[|issue.key|] == '-'
    ensures name[|issue.key| + 1..] == slug(issue.summary)
  {
    issue.key + "-" + slug(issue.summary)
  }

  /** `command_start`: both configurations must be set and the tracker host a
      URL; then the issue is looked up, the proposed name edited, and one
      create-and-checkout runs from the configured base branch. */
  function CommandStart(config: Config, repoConfig: RepoConfig, repo: Git.Repo, ticketId: string,
                        urlParse: string -> Option<Jira.ParseError>,
                        lookup: string -> Result<Jira.Issue, Jira.JiraError>,
                        slug: string -> string,
                        edit: string -> Result<string, InquireError>,
                        faults: Git.CheckoutFaults): (o: StartOutcome)
    // configuration checks come first and touch nothing
    ensures config.jira.None? ==> o == StartOutcome(Err(ConfigurationNotSet), repo)
    ensures config.jira.Some? && urlParse(config.jira.value.host).Some? ==>
              o == StartOutcome(Err(JiraFailure(Jira.InvalidUrl(urlParse(config.jira.value.host).value))), repo)
    ensures config.jira.Some? && urlParse(config.jira.value.host).None? && repoConfig.IsNotSet() ==>
              o == StartOutcome(Err(ConfigurationNotSet), repo)
    // the repository changes only through the one create-and-checkout
    ensures o.repo != repo ==>
              && config.jira.Some? && repoConfig.IsSet() && lookup(ticketId).Ok?
              && edit(DefaultBranchName(lookup(ticketId).value, slug)).Ok?
    ensures config.jira.Some? && urlParse(config.jira.value.host).None? && repoConfig.IsSet() ==>
              match lookup(ticketId)
              case Err(e) => o == StartOutcome(Err(JiraFailure(e)), repo)
              case Ok(issue) =>
                match edit(DefaultBranchName(issue, slug))
                case Err(e) => o == StartOutcome(Err(InputFailure(e)), repo)
                case Ok(name) =>
                  var step := Git.CreateAndCheckoutBranch(repo, name, repoConfig.branches.value.dev, faults);
                  o == StartOutcome(Adapt(step.result, (e: Git.GitError) => GitFailure(e)), step.repo)
  {
    match config.jira
    case None => StartOutcome(Err(ConfigurationNotSet), repo)
    case Some(j) =>
      match Jira.Connect(j.host, j.user, j.token, urlParse)
      case Err(e) => StartOutcome(Err(JiraFailure(e)), repo)
      case Ok(_) =>
        match repoConfig.branches
        case None => StartOutcome(Err(ConfigurationNotSet), repo)
        case Some(b) =>
          match lookup(ticketId)
          case Err(e) => StartOutcome(Err(JiraFailure(e)), repo)
          case Ok(issue) =>
            match edit(DefaultBranchName(issue, slug))
            case Err(e) => StartOutcome(Err(InputFailure(e)), repo)
            case Ok(name) =>
              var step := Git.CreateAndCheckoutBranch(repo, name, b.dev, faults);
              StartOutcome(Adapt(step.result, (e: Git.GitError) => GitFailure(e)), step.repo)
  }

  /** When no global configuration is set, the overwrite question is not asked:
      its answer makes no difference. */
  lemma InitConfigUnsetNeverAsks(config: Config, a: GlobalAnswers, overwrite: Result<bool, InquireError>,
                                 urlParse: string -> Option<Jira.ParseError>, storeFailure: Option<ConfyError>)
    requires config.IsNotSet()
    ensures CommandInitConfig(config, a, urlParse, storeFailure)
            == CommandInitConfig(config, a.(overwrite := overwrite), urlParse, storeFailure)
  {
  }

  /** The same for the repository configuration. */
  lemma InitRepoUnsetNeverAsks(repoConfig: RepoConfig, repo: Git.Handle, a: RepoAnswers,
                               overwrite: Result<bool, InquireError>, storeFailure: Option<ConfyError>)
    requires repoConfig.IsNotSet() && PickInRange(a, repo.listing)
    ensures CommandInitRepo(repoConfig, repo, a, storeFailure)
            == CommandInitRepo(repoConfig, repo, a.(overwrite := overwrite), storeFailure)
  {
  }

  /** After a successful initialization of an unset configuration, the store
      receives the unset configuration while the caller gets the new one: the
      new credentials are never persisted. */
  lemma InitConfigStoresStaleValue(answers: GlobalAnswers, urlParse: string -> Option<Jira.ParseError>,
                                   storeFailure: Option<ConfyError>)
    ensures var o := CommandInitConfig(Unset, answers, urlParse, storeFailure);
            o.result.Ok? ==> o.saved == Some(Unset) && o.result.value.IsSet() && o.saved.value != o.result.value
  {
  }

  /** A start that succeeds has moved HEAD to the edited name, created from
      the configured base branch's tip, tracking itself. */
  lemma StartSucceeds(config: Config, repoConfig: RepoConfig, repo: Git.Repo, ticketId: string,
                      urlParse: string -> Option<Jira.ParseError>,
                      lookup: string -> Result<Jira.Issue, Jira.JiraError>,
                      slug: string -> string,
                      edit: string -> Result<string, InquireError>)
    requires CommandStart(config, repoConfig, repo, ticketId, urlParse, lookup, slug, edit, Git.NoFaults).result.Ok?
    ensures repoConfig.IsSet() && lookup(ticketId).Ok?
    ensures var name := edit(DefaultBranchName(lookup(ticketId).value, slug)).value;
            var base := repoConfig.branches.value.dev;
            var after := CommandStart(config, repoConfig, repo, ticketId, urlParse, lookup, slug, edit, Git.NoFaults).repo;
            && base in repo.branches && name !in repo.branches
            && after.head == Git.OnBranch(name)
            && after.branches == repo.branches[name := repo.branches[base]]
            && after.upstream[name] == name
  {
  }

  /** A user who accepts the proposed name gets a branch called
      `key-slug(summary)`. */
  lemma StartWithDefaultName(config: Config, repoConfig: RepoConfig, repo: Git.Repo, ticketId: string,
                             urlParse: string -> Option<Jira.ParseError>,
                             lookup: string -> Result<Jira.Issue, Jira.JiraError>,
                             slug: string -> string,
                             edit: string -> Result<string, InquireError>)
    requires lookup(ticketId).Ok?
    requires var d := DefaultBranchName(lookup(ticketId).value, slug); edit(d) == Ok(d)
    requires CommandStart(config, repoConfig, repo, ticketId, urlParse, lookup, slug, edit, Git.NoFaults).result.Ok?
    ensures CommandStart(config, repoConfig, repo, ticketId, urlParse, lookup, slug, edit, Git.NoFaults).repo.head
            == Git.OnBranch(lookup(ticketId).value.key + "-" + slug(lookup(ticketId).value.summary))
  {
  }

  /** `command_init_config` as evidently intended: yes overwrites, no keeps,
      and the new configuration is what gets stored. */
  function CommandInitConfigIntended(config: Config, answers: GlobalAnswers, urlParse: string -> Option<Jira.ParseError>,
                                     storeFailure: Option<ConfyError>): (o: Outcome<Config>)
    ensures config.IsSet() && answers.overwrite == Ok(false) ==> o == Outcome(Ok(config), None)
    ensures o.saved.Some? ==> o.saved.value.IsSet() && Validated(urlParse, o.saved.value.jira.value)
    ensures o.result.Ok? && o.saved.Some? ==> o.result.value == o.saved.value
    ensures o.result.Ok? && o.saved.None? ==> o.result.value == config && config.IsSet()
    ensures config.IsSet() && answers.overwrite.Err? ==> o == Outcome(Err(InputFailure(answers.overwrite.error)), None)
    // unset, or confirmed: the initialization runs and its value is stored,
    // and returned once stored
    ensures (config.IsNotSet() || answers.overwrite == Ok(true)) ==>
              var entered := Setup.InitConfig(Some(config), answers.host, answers.user, answers.token, urlParse);
              && (entered.Err? ==> o == Outcome(Err(ConfigFailure(entered.error)), None))
              && (entered.Ok? ==> o.saved == Some(entered.value))
              && (entered.Ok? && storeFailure.None? ==> o.result == Ok(entered.value))
              && (entered.Ok? && storeFailure.Some? ==> o.result == Err(ConfigFailure(FromConfy(storeFailure.value))))
  {
    if config.IsSet() && answers.overwrite.Err? then Outcome(Err(InputFailure(answers.overwrite.error)), None)
    else if config.IsSet() && !answers.overwrite.value then Outcome(Ok(config), None)
    else
      match Setup.InitConfig(Some(config), answers.host, answers.user, answers.token, urlParse)
      case Err(e) => Outcome(Err(ConfigFailure(e)), None)
      case Ok(newConfig) =>
        match Save(storeFailure)
        case Err(e) => Outcome(Err(ConfigFailure(e)), Some(newConfig))
        case Ok(_) => Outcome(Ok(newConfig), Some(newConfig))
  }

  /** `command_init_repo` as evidently intended: yes overwrites, no keeps. */
  function CommandInitRepoIntended(repoConfig: RepoConfig, repo: Git.Handle, answers: RepoAnswers,
                                   storeFailure: Option<ConfyError>): (o: Outcome<RepoConfig>)
    requires PickInRange(answers, repo.listing)
    ensures repoConfig.IsSet() && answers.overwrite == Ok(false) ==> o == Outcome(Ok(repoConfig), None)
    ensures repoConfig.IsSet() && answers.overwrite == Ok(true) ==>
              o == CommandInitRepo(RepoUnset, repo, answers, storeFailure)
  {
    if repoConfig.IsSet() && answers.overwrite.Err? then Outcome(Err(InputFailure(answers.overwrite.error)), None)
    else if repoConfig.IsSet() && !answers.overwrite.value then Outcome(Ok(repoConfig), None)
    else CommandInitRepo(RepoUnset, repo, answers, storeFailure)
  }

  /** Under the intended reading, confirming an overwrite of a set
      configuration runs the initialization and stores its value. */
  lemma IntendedOverwriteOnYes(config: Config, answers: GlobalAnswers, urlParse: string -> Option<Jira.ParseError>)
    requires config.IsSet() && answers.overwrite == Ok(true)
    requires Setup.InitConfig(Some(config), answers.host, answers.user, answers.token, urlParse).Ok?
    ensures var o := CommandInitConfigIntended(config, answers, urlParse, None);
            && o.result == Ok(Setup.InitConfig(Some(config), answers.host, answers.user, answers.token, urlParse).value)
            && o.saved == Some(o.result.value)
  {
  }

  /** As written, the same answer returns the old configuration untouched. */
  lemma AsWrittenKeepsOnYes(config: Config, answers: GlobalAnswers, urlParse: string -> Option<Jira.ParseError>)
    requires config.IsSet() && answers.overwrite == Ok(true)
    ensures CommandInitConfig(config, answers, urlParse, None) == Outcome(Ok(config), None)
  {
  }
}

=== FILE: configuration.dfy ===
/** The two configuration scopes of src/config.rs: the global configuration
    (issue-tracker credentials), and the per-repository configuration (the
    base branch). Each scope is either set or unset. Loading and storing go
    through a store whose answers are parameters. */
module Configuration {
  import opened Wrappers
  import opened AdaptErr
  import Prompt
  import Jira

  /** `confy::ConfyError`, opaque. */
  datatype ConfyError = ConfyError(message: string)

  datatype ConfigError =
    | FromConfy(confy: ConfyError)
    | FromInquire(inquire: Prompt.InquireError)

  datatype JiraConfig = JiraConfig(host: string, user: string, token: string)

  /** The global configuration; it is set exactly when the tracker section is present. */
  datatype Config = Config(jira: Option<JiraConfig>)
  {
    predicate IsSet()
    {
      jira.Some?
    }

    predicate IsNotSet()
    {
      !IsSet()
    }
  }

  /** `Config::default()`: nothing configured. */
  const Unset: Config := Config(None)

  datatype BranchesName = BranchesName(dev: string)

  /** The repository configuration; it is set exactly when the base branch is present. */
  datatype RepoConfig = RepoConfig(branches: Option<BranchesName>)
  {
    predicate IsSet()
    {
      branches.Some?
    }

    predicate IsNotSet()
    {
      !IsSet()
    }
  }

  /** `RepoConfig::default()`: no base branch. */
  const RepoUnset: RepoConfig := RepoConfig(None)

  /** `Config::load`: the store's answer, with its error lifted by `adapt`. */
  function Load<T>(stored: Result<T, ConfyError>): (r: Result<T, ConfigError>)
    ensures r.Ok? <==> stored.Ok?
    ensures r.Ok? ==> r.value == stored.value
    ensures r.Err? ==> r.error == FromConfy(stored.error)
  {
    Adapt(stored, (e: ConfyError) => FromConfy(e))
  }

  /** `Config::save`: `failure` is the store's refusal, if any. */
  function Save(failure: Option<ConfyError>): (r: Result<(), ConfigError>)
    ensures r.Ok? <==> failure.None?
    ensures r.Err? ==> r.error == FromConfy(failure.value)
  {
    match failure
    case None => Ok(())
    case Some(e) => Err(FromConfy(e))
  }

  /** The minimum length of the user name and token prompts (`min_length!(3)`). */
  const MinLength: nat := 3

  /** Validators of the host prompt: `required!()` and the URL validator. */
  predicate HostAccepted(urlParse: string -> Option<Jira.ParseError>, host: string)
  {
    host != "" && urlParse(host).None?
  }

  /** Validators of the user name and token prompts: `required!()` and `min_length!(3)`. */
  predicate CredentialAccepted(text: string)
  {
    text != "" && |text| >= MinLength
  }

  /** Every field of a tracker section passes the validators of its prompt. */
  predicate Validated(urlParse: string -> Option<Jira.ParseError>, j: JiraConfig)
  {
    HostAccepted(urlParse, j.host) && CredentialAccepted(j.user) && CredentialAccepted(j.token)
  }
}

=== FILE: errors.dfy ===
/** The program's one closed error union (src/errors.rs): two errors of its
    own and one wrapping variant per collaborator that can fail. Rust's
    `#[from]` conversions are the wrapping constructors. */
module Errors {
  import opened Strings
  import Prompt
  import Jira
  import Configuration
  import Git

  /** `clap::Error`, opaque. */
  datatype ClapError = ClapError(message: string)

  datatype WfError =
    | ConfigurationNotSet
    | JiraFailure(jira: Jira.JiraError)
    | GitFailure(git: Git.GitError)
    | InputFailure(inquire: Prompt.InquireError)
    | ConfigFailure(config: Configuration.ConfigError)
    | CliArgsFailure(clap: ClapError)
    | NoGitWorkingDirectory

  /** The instruction a user gets when a configuration is missing. */
  const NotSetMessage := "Configuration is not set, please run init command first"

  /** The messages of the tracker errors (src/jira.rs:56-68): never empty, and
      the underlying HTTP or URL error is quoted at the end. */
  function JiraMessage(e: Jira.JiraError): (m: string)
    ensures |m| > 0
    ensures e.CannotCreateClient? || e.RemoteServerError? || e.ResponseError? ==> EndsWith(m, e.http.message)
    ensures e.InvalidUrl? ==> EndsWith(m, e.parse.message)
  {
    match e
    case CannotCreateClient(h) => "Cannot create http client " + h.message
    case RemoteServerError(h) => "Remote server error " + h.message
    case ResponseError(h) => "Invalid server response " + h.message
    case InvalidUrl(p) => "Invalid server url " + p.message
    case IssueNotFound => "Issue not found"
  }

  /** The messages of the configuration errors (src/config.rs:28-34): the
      store's or the prompt's own message is quoted at the end. */
  function ConfigMessage(e: Configuration.ConfigError): (m: string)
    ensures e.FromConfy? ==> EndsWith(m, e.confy.message)
    ensures e.FromInquire? ==> EndsWith(m, e.inquire.message)
  {
    match e
    case FromConfy(c) => "Configuration error " + c.message
    case FromInquire(i) => "Input error " + i.message
  }

  /** The text written to the error stream for each error (src/errors.rs:8-20). */
  function Message(e: WfError): (m: string)
    ensures e.ConfigurationNotSet? ==> Contains(m, "init")
    ensures e.GitFailure? ==> m == "Git error: " + Git.Message(e.git)
    // a failed branch operation names its branch in what the user reads
    ensures e.GitFailure? && Git.AboutBranch(e.git) ==> Contains(m, e.git.name)
  {
    match e
    case ConfigurationNotSet =>
      ContainsAt("Configuration is not set, please run ", "init", " command first");
      assert "Configuration is not set, please run " + "init" + " command first" == NotSetMessage;
      NotSetMessage
    case JiraFailure(j) => "Jira error: " + JiraMessage(j)
    case GitFailure(g) =>
      if Git.AboutBranch(g) then
        Git.MessageNamesBranch(g);
        ContainsExtends("Git error: ", Git.Message(g), g.name);
        "Git error: " + Git.Message(g)
      else "Git error: " + Git.Message(g)
    case InputFailure(i) => "Input error: " + i.message
    case ConfigFailure(c) => "Configuration error: " + ConfigMessage(c)
    case CliArgsFailure(c) => c.message
    case NoGitWorkingDirectory => "Current repository has no working directory !?!"
  }

  /** Each wrapping keeps the collaborator's error unchanged and recoverable,
      so distinct source errors stay distinct. */
  lemma WrappingsAreInjective(j1: Jira.JiraError, j2: Jira.JiraError, g1: Git.GitError, g2: Git.GitError,
                              i1: Prompt.InquireError, i2: Prompt.InquireError,
                              c1: Configuration.ConfigError, c2: Configuration.ConfigError,
                              a1: ClapError, a2: ClapError)
    ensures JiraFailure(j1).jira == j1 && GitFailure(g1).git == g1 && InputFailure(i1).inquire == i1
    ensures ConfigFailure(c1).config == c1 && CliArgsFailure(a1).clap == a1
    ensures JiraFailure(j1) == JiraFailure(j2) ==> j1 == j2
    ensures GitFailure(g1) == GitFailure(g2) ==> g1 == g2
    ensures InputFailure(i1) == InputFailure(i2) ==> i1 == i2
    ensures ConfigFailure(c1) == ConfigFailure(c2) ==> c1 == c2
    ensures CliArgsFailure(a1) == CliArgsFailure(a2) ==> a1 == a2
  {
  }

  /** The two payload-free errors are neither each other nor any wrapped error. */
  lemma PlainErrorsAreDistinct(e: WfError)
    requires e.JiraFailure? || e.GitFailure? || e.InputFailure? || e.ConfigFailure? || e.CliArgsFailure?
    ensures e != ConfigurationNotSet && e != NoGitWorkingDirectory
    ensures ConfigurationNotSet != NoGitWorkingDirectory
  {
  }
}

=== FILE: git.dfy ===
/** The branch resolver of src/git.rs over an abstract repository state.
    libgit2's own failures that the state does not determine (a refused ref
    creation, a failed upstream write, checkout or HEAD move, the transport of
    a push) are parameters. */
module Git {
  import opened Wrappers
  import opened Strings

  /** `git2::Error`, opaque. */
  datatype Git2Error = Git2Error(message: string)

  datatype GitError =
    | CannotOpenRepository
    | BranchNotFound(name: string)
    | CommitNotFound(name: string)
    | CannotCreateBranch(name: string)
    | CannotCheckoutBranch(name: string, cause: Git2Error)
    | CannotGetHead
    | NotInABranch
    | OriginNotFound
    | CannotPushToOrigin(cause: Git2Error)

  /** Object ids of commits and of trees. */
  type Oid = nat

  /** Where HEAD stands: on a local branch, detached, or not resolvable at all
      (a broken HEAD). HEAD on a branch that does not exist is an unborn HEAD,
      which does not resolve either. */
  datatype Head = OnBranch(branch: string) | Detached | Unresolvable

  /** The repository state the resolver reads and writes:
      - `branches`: local branch name to the object its ref points at;
      - `commits`: the objects that are commits, each with its root tree;
      - `upstream`: a branch's upstream tracking branch;
      - `head`, the working tree (with the index) and the remote names. */
  datatype Repo = Repo(
    branches: map<string, Oid>,
    commits: map<Oid, Oid>,
    upstream: map<string, string>,
    head: Head,
    worktree: Oid,
    remotes: set<string>)

  /** An opened repository: its state, its working directory (none for a bare
      repository) and what listing its branches answers. */
  datatype Handle = Handle(state: Repo, workdir: Option<string>, listing: Result<seq<string>, GitError>)

  /** The libgit2 step failures of a create-and-checkout that the state does
      not determine. `createRefused` is a refusal of the ref creation other
      than an existing name, for example a name git does not accept. */
  datatype CheckoutFaults = CheckoutFaults(
    createRefused: bool,
    upstreamFails: bool,
    peelFails: Option<Git2Error>,
    checkoutFails: Option<Git2Error>,
    setHeadFails: Option<Git2Error>)

  const NoFaults := CheckoutFaults(false, false, None, None, None)

  /** The outcome of a state-changing operation: its result and the state it leaves. */
  datatype Step = Step(result: Result<(), GitError>, repo: Repo)

  /** The full ref name of a local branch. */
  function RefName(branch: string): string
  {
    "refs/heads/" + branch
  }

  /** The remote every push goes to. */
  const Origin := "origin"

  /** HEAD names a live branch and every tracked branch exists. */
  ghost predicate Consistent(repo: Repo)
  {
    && (repo.head.OnBranch? ==> repo.head.branch in repo.branches)
    && repo.upstream.Keys <= repo.branches.Keys
  }

  /** HEAD resolves to a reference: it is detached, or on a branch that exists. */
  predicate HeadResolves(repo: Repo)
  {
    repo.head.Detached? || (repo.head.OnBranch? && repo.head.branch in repo.branches)
  }

  /** The checks of a create-and-checkout before anything is written: the base
      branch exists, its tip is a commit, and the new name is free. */
  predicate GuardsPass(repo: Repo, newBranch: string, base: string)
  {
    base in repo.branches && repo.branches[base] in repo.commits && newBranch !in repo.branches
  }

  /** The new ref gets written. */
  predicate RefCreated(repo: Repo, newBranch: string, base: string, faults: CheckoutFaults)
  {
    GuardsPass(repo, newBranch, base) && !faults.createRefused
  }

  /** The new ref gets written and its upstream set. */
  predicate UpstreamSet(repo: Repo, newBranch: string, base: string, faults: CheckoutFaults)
  {
    RefCreated(repo, newBranch, base, faults) && !faults.upstreamFails
  }

  /** The steps up to the checkout of the tree all go through. */
  predicate TreeCheckedOut(repo: Repo, newBranch: string, base: string, faults: CheckoutFaults)
  {
    UpstreamSet(repo, newBranch, base, faults) && faults.peelFails.None? && faults.checkoutFails.None?
  }

  /** `Repository::discover`: every failure becomes one opaque error. */
  function Discover(found: Option<Handle>): (r: Result<Handle, GitError>)
    ensures r.Ok? <==> found.Some?
    ensures r.Ok? ==> r.value == found.value
    ensures r.Err? ==> r.error == CannotOpenRepository
  {
    match found
    case Some(h) => Ok(h)
    case None => Err(CannotOpenRepository)
  }

  /** `create_and_checkout_branch(newBranch, base)`: resolve `base` to its tip
      commit, create `newBranch` on it (never overwriting), make it track itself, check out
      its tree and move HEAD onto it. The steps are not atomic: a failure after
      the ref is created leaves it in place. */
  function CreateAndCheckoutBranch(repo: Repo, newBranch: string, base: string, faults: CheckoutFaults): (s: Step)
    // the guards, in order, and what each leaves behind
    ensures base !in repo.branches ==> s == Step(Err(BranchNotFound(base)), repo)
    ensures base in repo.branches && repo.branches[base] !in repo.commits ==>
              s == Step(Err(CommitNotFound(base)), repo)
    ensures base in repo.branches && repo.branches[base] in repo.commits && newBranch in repo.branches ==>
              s == Step(Err(CannotCreateBranch(newBranch)), repo)
    // success exactly when every step goes through
    ensures s.result.Ok? <==> GuardsPass(repo, newBranch, base) && faults == NoFaults
    ensures s.result.Ok? ==>
              && s.repo.branches == repo.branches[newBranch := repo.branches[base]]
              && s.repo.upstream == repo.upstream[newBranch := newBranch]
              && s.repo.worktree == repo.commits[repo.branches[base]]
              && s.repo.head == OnBranch(newBranch)
    // past the guards: each step's failure, the error it reports and what it leaves behind
    ensures GuardsPass(repo, newBranch, base) && faults.createRefused ==>
              s == Step(Err(CannotCreateBranch(newBranch)), repo)
    ensures RefCreated(repo, newBranch, base, faults) ==>
              newBranch in s.repo.branches && s.repo.branches[newBranch] == repo.branches[base]
    ensures RefCreated(repo, newBranch, base, faults) && faults.upstreamFails ==>
              s.result == Err(CannotCreateBranch(newBranch)) && s.repo.upstream == repo.upstream
    ensures UpstreamSet(repo, newBranch, base, faults) ==> s.repo.upstream == repo.upstream[newBranch := newBranch]
    ensures UpstreamSet(repo, newBranch, base, faults) && faults.peelFails.Some? ==>
              s.result == Err(CannotCheckoutBranch(newBranch, faults.peelFails.value))
    ensures UpstreamSet(repo, newBranch, base, faults) && faults.peelFails.None? && faults.checkoutFails.Some? ==>
              s.result == Err(CannotCheckoutBranch(newBranch, faults.checkoutFails.value))
    ensures TreeCheckedOut(repo, newBranch, base, faults) && faults.setHeadFails.Some? ==>
              s.result == Err(CannotCheckoutBranch(newBranch, faults.setHeadFails.value))
    // the working tree changes only by the checkout step, to the base tip's tree
    ensures TreeCheckedOut(repo, newBranch, base, faults) ==> s.repo.worktree == repo.commits[repo.branches[base]]
    ensures !TreeCheckedOut(repo, newBranch, base, faults) ==> s.repo.worktree == repo.worktree
    // the error names the branch it is about
    ensures s.result.Err? ==>
              s.result.error in {BranchNotFound(base), CommitNotFound(base), CannotCreateBranch(newBranch)} ||
              (s.result.error.CannotCheckoutBranch? && s.result.error.name == newBranch)
    // no rollback: once the new ref exists it stays, pointing at the base tip
    ensures newBranch in s.repo.branches && newBranch !in repo.branches ==>
              base in repo.branches && s.repo.branches[newBranch] == repo.branches[base]
    ensures s.result.Err? && s.result.error.CannotCheckoutBranch? ==>
              newBranch in s.repo.branches && newBranch !in repo.branches
    // HEAD moves only on success; nothing else about the repository changes
    ensures s.result.Err? ==> s.repo.head == repo.head
    ensures forall b :: b != newBranch ==> (b in s.repo.branches <==> b in repo.branches)
    ensures forall b :: b != newBranch && b in repo.branches ==> s.repo.branches[b] == repo.branches[b]
    ensures forall b :: b != newBranch ==> (b in s.repo.upstream <==> b in repo.upstream)
    ensures forall b :: b != newBranch && b in repo.upstream ==> s.repo.upstream[b] == repo.upstream[b]
    ensures s.repo.commits == repo.commits && s.repo.remotes == repo.remotes
  {
    if base !in repo.branches then Step(Err(BranchNotFound(base)), repo)
    else
      var tip := repo.branches[base];
      if tip !in repo.commits then Step(Err(CommitNotFound(base)), repo)
      else if newBranch in repo.branches || faults.createRefused then Step(Err(CannotCreateBranch(newBranch)), repo)
      else
        var created := repo.(branches := repo.branches[newBranch := tip]);
        if faults.upstreamFails then Step(Err(CannotCreateBranch(newBranch)), created)
        else
          var tracked := created.(upstream := created.upstream[newBranch := newBranch]);
          if faults.peelFails.Some? then Step(Err(CannotCheckoutBranch(newBranch, faults.peelFails.value)), tracked)
          else if faults.checkoutFails.Some? then Step(Err(CannotCheckoutBranch(newBranch, faults.checkoutFails.value)), tracked)
          else
            var checkedOut := tracked.(worktree := repo.commits[tip]);
            if faults.setHeadFails.Some? then Step(Err(CannotCheckoutBranch(newBranch, faults.setHeadFails.value)), checkedOut)
            else Step(Ok(()), checkedOut.(head := OnBranch(newBranch)))
  }

  /** What a push did: its result and the refspec handed to the transport,
      `None` when it never reached the network. */
  datatype PushOutcome = PushOutcome(result: Result<(), GitError>, refspec: Option<string>)

  /** `push()`: HEAD must resolve and be on a branch, and `origin` must exist;
      then the branch ref is pushed to the same name on `origin`. `transport`
      is the network's answer. A push has no local state to return. */
  function Push(repo: Repo, transport: Option<Git2Error>): (p: PushOutcome)
    ensures !HeadResolves(repo) ==> p == PushOutcome(Err(CannotGetHead), None)
    ensures repo.head.Detached? ==> p == PushOutcome(Err(NotInABranch), None)
    ensures HeadResolves(repo) && repo.head.OnBranch? && Origin !in repo.remotes ==>
              p == PushOutcome(Err(OriginNotFound), None)
    ensures p.refspec.Some? <==> HeadResolves(repo) && repo.head.OnBranch? && Origin in repo.remotes
    ensures p.refspec.Some? ==>
              p.refspec.value == RefName(repo.head.branch) + ":" + RefName(repo.head.branch)
    ensures p.refspec.Some? ==>
              p.result == (if transport.None? then Ok(()) else Err(CannotPushToOrigin(transport.value)))
  {
    match repo.head
    case Unresolvable => PushOutcome(Err(CannotGetHead), None)
    case Detached => PushOutcome(Err(NotInABranch), None)
    case OnBranch(b) =>
      if b !in repo.branches then PushOutcome(Err(CannotGetHead), None)
      else if Origin !in repo.remotes then PushOutcome(Err(OriginNotFound), None)
      else
        var spec := RefName(b) + ":" + RefName(b);
        match transport
        case None => PushOutcome(Ok(()), Some(spec))
        case Some(e) => PushOutcome(Err(CannotPushToOrigin(e)), Some(spec))
  }

  /** The messages of src/git.rs:10-27. None is empty, and a libgit2 cause is
      quoted at the end of its message. */
  function Message(e: GitError): (m: string)
    ensures |m| > 0
    ensures e.CannotCheckoutBranch? || e.CannotPushToOrigin? ==> EndsWith(m, e.cause.message)
  {
    match e
    case CannotOpenRepository => "Cannot open repository"
    case BranchNotFound(n) => "Branch " + n + " not found"
    case CommitNotFound(n) => "Commit " + n + " not found"
    case CannotCreateBranch(n) => "Cannot create branch " + n
    case CannotCheckoutBranch(n, c) => "Cannot checkout branch " + n + ": " + c.message
    case CannotGetHead => "Cannot get HEAD"
    case NotInABranch => "You are not in a branch, please checkout a branch first"
    case OriginNotFound => "Repository origin not found"
    case CannotPushToOrigin(c) => "Cannot push to origin: " + c.message
  }

  /** The errors that are about one branch, named in their `name` field. */
  predicate AboutBranch(e: GitError)
  {
    e.BranchNotFound? || e.CommitNotFound? || e.CannotCreateBranch? || e.CannotCheckoutBranch?
  }

  /** Every error about a branch names that branch in its message, so a
      half-done creation can be repaired by hand. */
  lemma MessageNamesBranch(e: GitError)
    requires AboutBranch(e)
    ensures Contains(Message(e), e.name)
  {
    match e
    case BranchNotFound(n) => ContainsAt("Branch ", n, " not found");
    case CommitNotFound(n) => ContainsAt("Commit ", n, " not found");
    case CannotCreateBranch(n) =>
      ContainsAt("Cannot create branch ", n, "");
      assert "Cannot create branch " + n + "" == "Cannot create branch " + n;
    case CannotCheckoutBranch(n, c) =>
      ContainsAt("Cannot checkout branch ", n, ": " + c.message);
      assert "Cannot checkout branch " + n + (": " + c.message) == Message(e);
  }

  /** Creating a branch keeps the repository consistent, whatever step fails. */
  lemma CreatePreservesConsistency(repo: Repo, newBranch: string, base: string, faults: CheckoutFaults)
    requires Consistent(repo)
    ensures Consistent(CreateAndCheckoutBranch(repo, newBranch, base, faults).repo)
  {
  }

  /** Creating an existing branch changes nothing: the creation never forces. */
  lemma CreateNeverOverwrites(repo: Repo, newBranch: string, base: string, faults: CheckoutFaults)
    requires newBranch in repo.branches
    ensures CreateAndCheckoutBranch(repo, newBranch, base, faults).repo == repo
    ensures CreateAndCheckoutBranch(repo, newBranch, base, faults).result.Err?
  {
  }

  /** After a successful start, a push sends the new branch to its namesake on
      `origin`; locally the new branch tracks itself. */
  lemma PushAfterCreate(repo: Repo, newBranch: string, base: string, transport: Option<Git2Error>)
    requires Origin in repo.remotes
    requires CreateAndCheckoutBranch(repo, newBranch, base, NoFaults).result.Ok?
    ensures var after := CreateAndCheckoutBranch(repo, newBranch, base, NoFaults).repo;
            && Push(after, transport).refspec == Some(RefName(newBranch) + ":" + RefName(newBranch))
            && after.upstream[newBranch] == newBranch
  {
  }
}

=== FILE: jira.dfy ===
/** The issue-tracker client's types (src/jira.rs is context here): the issue
    record returned by a lookup, its error union, and building a server
    handle from the configured host, which fails exactly when the host is not
    a URL. The HTTP exchange itself is an oracle of the callers. */
module Jira {
  import opened Wrappers

  /** `url::ParseError`, opaque. */
  datatype ParseError = ParseError(message: string)

  /** `reqwest::Error`, opaque. */
  datatype HttpError = HttpError(message: string)

  datatype Status = Status(id: string, name: string)

  datatype Issue = Issue(id: string, key: string, summary: string, status: Status)

  datatype JiraError =
    | CannotCreateClient(http: HttpError)
    | RemoteServerError(http: HttpError)
    | ResponseError(http: HttpError)
    | InvalidUrl(parse: ParseError)
    | IssueNotFound

  /** A connected server: the parsed host and the credentials. */
  datatype Server = Server(host: string, user: string, token: string)

  /** `JiraServer::try_from(&JiraConfig)`: `urlParse` stands for `Url::parse`
      and answers `None` when its argument is a well-formed URL. */
  function Connect(host: string, user: string, token: string, urlParse: string -> Option<ParseError>): (r: Result<Server, JiraError>)
    ensures r.Ok? <==> urlParse(host).None?
    ensures r.Ok? ==> r.value == Server(host, user, token)
    ensures r.Err? ==> r.error == InvalidUrl(urlParse(host).value)
  {
    match urlParse(host)
    case Some(e) => Err(InvalidUrl(e))
    case None => Ok(Server(host, user, token))
  }
}

=== FILE: lib.dfy ===
/** `repeat_until_ok` of src/lib.rs: call `f` until it returns `Ok`, and return
    that value. The closure is modelled by the results its successive calls
    produce; termination needs one of them to be `Ok`. */
module Lib {
  import opened Wrappers

  /** True iff some call in `calls` succeeds. */
  predicate SomeOk<T, E>(calls: seq<Result<T, E>>)
  {
    exists i :: 0 <= i < |calls| && calls[i].Ok?
  }

  /** Returns the value of the first successful call and the number `n` of
      calls made; every earlier call failed and its error was dropped. */
  method RepeatUntilOk<T, E>(calls: seq<Result<T, E>>) returns (t: T, n: nat)
    requires SomeOk(calls)
    ensures 1 <= n <= |calls|
    ensures calls[n - 1] == Ok(t)
    ensures forall j :: 0 <= j < n - 1 ==> calls[j].Err?
  {
    var k := 0;
    while !calls[k].Ok?
      invariant k < |calls|
      invariant forall j :: 0 <= j < k ==> calls[j].Err?
      invariant exists i :: k <= i < |calls| && calls[i].Ok?
      decreases |calls| - k
    {
      k := k + 1;
    }
    t := calls[k].value;
    n := k + 1;
  }

  /** The results of `k` calls of a stateful closure `step` started in state `s`. */
  function Calls<S, T, E>(step: S -> (Result<T, E>, S), s: S, k: nat): (rs: seq<Result<T, E>>)
    ensures |rs| == k
    ensures k > 0 ==> rs[0] == step(s).0
  {
    if k == 0 then [] else [step(s).0] + Calls(step, step(s).1, k - 1)
  }

  /** The closure of the second test: it fails, counting, while its counter is at most 5. */
  function Counter(x: int): (Result<int, string>, int)
  {
    if x > 5 then (Ok(x), x) else (Err("Not ok"), x + 1)
  }

  /** A closure that succeeds at once is called once (src/lib.rs:26-29). */
  method RepeatReturnsResult() returns (res: int, n: nat)
    ensures res == 1 && n == 1
  {
    var calls: seq<Result<int, string>> := [Ok(1)];
    assert calls[0].Ok?;
    res, n := RepeatUntilOk(calls);
  }

  /** The counting closure fails six times and then returns 6 (src/lib.rs:31-43). */
  method RepeatReturnsResultEventually() returns (res: int, n: nat)
    ensures res == 6 && n == 7
  {
    var calls := Calls(Counter, 0, 7);
    assert calls == [Err("Not ok"), Err("Not ok"), Err("Not ok"), Err("Not ok"), Err("Not ok"), Err("Not ok"), Ok(6)];
    assert calls[6].Ok?;
    res, n := RepeatUntilOk(calls);
  }
}

=== FILE: program.dfy ===
/** The entry point of src/main.rs: load the global configuration (with or
    without auto-initialization), dispatch on the parsed command, and map the
    result to an exit status. Everything the program reads from outside
    (arguments, stores, repository discovery, prompts, tracker, transport) is
    one environment record. */
module Program {
  import opened Wrappers
  import opened AdaptErr
  import opened Prompt
  import opened Configuration
  import opened Errors
  import opened Commands
  import Jira
  import Git

  datatype TestCommand = Sub1 | Sub2 | All

  /** The parsed command line. */
  datatype WfCommand = Init | Test(sub: TestCommand) | Start(ticketId: string) | Push | Noop

  /** The answers of the outside world to one run. `repoAnswersOnLoad` and
      `repoStoreFailureOnLoad` serve an initialization triggered by loading the
      repository configuration, `repoAnswers` and `repoStoreFailure` the
      explicit one of the init command. */
  datatype Env = Env(
    args: Result<WfCommand, ClapError>,
    globalStored: Result<Config, ConfyError>,
    globalStoreFailure: Option<ConfyError>,
    repoStored: Result<RepoConfig, ConfyError>,
    repoStoreFailureOnLoad: Option<ConfyError>,
    repoStoreFailure: Option<ConfyError>,
    found: Option<Git.Handle>,
    globalAnswers: GlobalAnswers,
    repoAnswersOnLoad: RepoAnswers,
    repoAnswers: RepoAnswers,
    urlParse: string -> Option<Jira.ParseError>,
    lookup: string -> Result<Jira.Issue, Jira.JiraError>,
    slug: string -> string,
    edit: string -> Result<string, InquireError>,
    faults: Git.CheckoutFaults,
    transport: Option<Git.Git2Error>)

  /** What one run did: its result, the values handed to each store, the
      state it left the discovered repository in, and the refspec pushed. */
  datatype RunOutcome = RunOutcome(
    result: Result<(), WfError>,
    globalSaved: seq<Config>,
    repoSaved: seq<RepoConfig>,
    repo: Option<Git.Repo>,
    pushed: Option<string>)

  /** The prompts of a run can only pick listed branches. */
  predicate WellFormed(env: Env)
  {
    env.found.Some? ==>
      PickInRange(env.repoAnswersOnLoad, env.found.value.listing) && PickInRange(env.repoAnswers, env.found.value.listing)
  }

  function Stored<T>(saved: Option<T>): (s: seq<T>)
    ensures saved.None? ==> s == []
    ensures saved.Some? ==> s == [saved.value]
  {
    if saved.Some? then [saved.value] else []
  }

  function Unit<T>(r: Result<T, WfError>): (u: Result<(), WfError>)
    ensures u.Ok? <==> r.Ok?
    ensures r.Err? ==> u.error == r.error
  {
    match r
    case Ok(_) => Ok(())
    case Err(e) => Err(e)
  }

  /** Whether loading may run the initialization: every command but init. */
  function AutoInit(command: WfCommand): (allowed: bool)
    ensures !allowed <==> command.Init?
  {
    command != Init
  }

  /** `load_config`: initialization runs exactly when the loaded configuration
      is unset and auto-initialization is allowed. */
  function LoadConfig(autoInit: bool, stored: Result<Config, ConfyError>, answers: GlobalAnswers,
                      urlParse: string -> Option<Jira.ParseError>, storeFailure: Option<ConfyError>): (o: Outcome<Config>)
    ensures stored.Err? ==> o == Outcome(Err(ConfigFailure(FromConfy(stored.error))), None)
    ensures stored.Ok? && stored.value.IsNotSet() && autoInit ==>
              o == CommandInitConfig(stored.value, answers, urlParse, storeFailure)
    ensures stored.Ok? && (stored.value.IsSet() || !autoInit) ==> o == Outcome(Ok(stored.value), None)
  {
    match Load(stored)
    case Err(e) => Outcome(Err(ConfigFailure(e)), None)
    case Ok(config) =>
      if config.IsNotSet() && autoInit then CommandInitConfig(config, answers, urlParse, storeFailure)
      else Outcome(Ok(config), None)
  }

  /** `load_repo_config`: a repository without working directory fails before
      anything is loaded; an unset configuration is always initialized. */
  function LoadRepoConfig(repo: Git.Handle, stored: Result<RepoConfig, ConfyError>, answers: RepoAnswers,
                          storeFailure: Option<ConfyError>): (o: Outcome<RepoConfig>)
    requires PickInRange(answers, repo.listing)
    ensures repo.workdir.None? ==> o == Outcome(Err(NoGitWorkingDirectory), None)
    ensures repo.workdir.Some? && stored.Err? ==> o == Outcome(Err(ConfigFailure(FromConfy(stored.error))), None)
    ensures repo.workdir.Some? && stored.Ok? && stored.value.IsNotSet() ==>
              o == CommandInitRepo(stored.value, repo, answers, storeFailure)
    ensures repo.workdir.Some? && stored.Ok? && stored.value.IsSet() ==> o == Outcome(Ok(stored.value), None)
  {
    match repo.workdir
    case None => Outcome(Err(NoGitWorkingDirectory), None)
    case Some(_) =>
      match Load(stored)
      case Err(e) => Outcome(Err(ConfigFailure(e)), None)
      case Ok(config) =>
        if config.IsNotSet() then CommandInitRepo(config, repo, answers, storeFailure)
        else Outcome(Ok(config), None)
  }

  /** `run`. */
  function Run(env: Env): (o: RunOutcome)
    requires WellFormed(env)
    ensures env.args.Err? ==> o == RunOutcome(Err(CliArgsFailure(env.args.error)), [], [], None, None)
    // only a push reaches the git remote, and it changes nothing locally
    ensures o.pushed.Some? ==> env.args == Ok(Push) && env.found.Some? && o.repo == Some(env.found.value.state)
    // only a start changes the repository, and only through create-and-checkout
    ensures o.repo.Some? ==> env.found.Some?
    ensures o.repo.Some? && o.repo.value != env.found.value.state ==> env.args.Ok? && env.args.value.Start?
    // the repository configuration is never stored by a push, a no-op or a test
    ensures env.args.Ok? && (env.args.value.Push? || env.args.value.Noop? || env.args.value.Test?) ==> o.repoSaved == []
    // at most one global and two repository store writes
    ensures |o.globalSaved| <= 1 && |o.repoSaved| <= 2
  {
    match env.args
    case Err(e) => RunOutcome(Err(CliArgsFailure(e)), [], [], None, None)
    case Ok(command) =>
      var loaded := LoadConfig(AutoInit(command), env.globalStored, env.globalAnswers, env.urlParse, env.globalStoreFailure);
      match loaded.result
      case Err(e) => RunOutcome(Err(e), Stored(loaded.saved), [], None, None)
      case Ok(config) =>
        match command
        case Init =>
          var initialized := CommandInitConfig(config, env.globalAnswers, env.urlParse, env.globalStoreFailure);
          var globalSaved := Stored(loaded.saved) + Stored(initialized.saved);
          if initialized.result.Err? then RunOutcome(Err(initialized.result.error), globalSaved, [], None, None)
          else
            (match Git.Discover(env.found)
             case Err(_) => RunOutcome(Ok(()), globalSaved, [], None, None)
             case Ok(repo) =>
               var repoLoaded := LoadRepoConfig(repo, env.repoStored, env.repoAnswersOnLoad, env.repoStoreFailureOnLoad);
               var repoConfig := if repoLoaded.result.Ok? then repoLoaded.result.value else RepoUnset;
               var repoInitialized := CommandInitRepo(repoConfig, repo, env.repoAnswers, env.repoStoreFailure);
               RunOutcome(Unit(repoInitialized.result), globalSaved, Stored(repoLoaded.saved) + Stored(repoInitialized.saved),
                          Some(repo.state), None))
        case Test(_) => RunOutcome(Ok(()), Stored(loaded.saved), [], None, None)
        case Noop => RunOutcome(Ok(()), Stored(loaded.saved), [], None, None)
        case Start(ticketId) =>
          (match Git.Discover(env.found)
           case Err(e) => RunOutcome(Err(GitFailure(e)), Stored(loaded.saved), [], None, None)
           case Ok(repo) =>
             var repoLoaded := LoadRepoConfig(repo, env.repoStored, env.repoAnswersOnLoad, env.repoStoreFailureOnLoad);
             match repoLoaded.result
             case Err(e) => RunOutcome(Err(e), Stored(loaded.saved), Stored(repoLoaded.saved), Some(repo.state), None)
             case Ok(repoConfig) =>
               var started := CommandStart(config, repoConfig, repo.state, ticketId, env.urlParse, env.lookup, env.slug,
                                           env.edit, env.faults);
               RunOutcome(started.result, Stored(loaded.saved), Stored(repoLoaded.saved), Some(started.repo), None))
        case Push =>
          match Git.Discover(env.found)
          case Err(e) => RunOutcome(Err(GitFailure(e)), Stored(loaded.saved), [], None, None)
          case Ok(repo) =>
            var pushed := Git.Push(repo.state, env.transport);
            RunOutcome(Adapt(pushed.result, (e: Git.GitError) => GitFailure(e)), Stored(loaded.saved), [],
                       Some(repo.state), pushed.refspec)
  }

  /** What `main` hands back to the shell. */
  datatype Exit = Exit(code: nat, stderr: string)

  /** `main`: success exactly when `run` succeeds; a failure writes its message. */
  function MainExit(r: Result<(), WfError>): (x: Exit)
    ensures x.code == 0 <==> r.Ok?
    ensures r.Ok? ==> x.stderr == ""
    ensures r.Err? ==> x.stderr == Message(r.error) + "\n"
  {
    match r
    case Ok(()) => Exit(0, "")
    case Err(e) => Exit(1, Message(e) + "\n")
  }

  /** Only the init command keeps loading from initializing. */
  lemma AutoInitUnlessInit(command: WfCommand, stored: Config, answers: GlobalAnswers,
                           urlParse: string -> Option<Jira.ParseError>, storeFailure: Option<ConfyError>)
    requires stored.IsNotSet()
    ensures LoadConfig(AutoInit(command), Ok(stored), answers, urlParse, storeFailure) == Outcome(Ok(stored), None)
            <==> command.Init?
  {
    if !command.Init? {
      var o := CommandInitConfig(stored, answers, urlParse, storeFailure);
      assert o.result.Ok? ==> o.saved.Some?;
    }
  }

  /** A push never reads the repository configuration: neither its store
      nor the answers of a repository initialization matter. */
  lemma PushIgnoresRepoConfig(env: Env, repoStored: Result<RepoConfig, ConfyError>, a1: RepoAnswers, a2: RepoAnswers)
    requires env.args == Ok(Push) && WellFormed(env)
    requires WellFormed(env.(repoStored := repoStored, repoAnswersOnLoad := a1, repoAnswers := a2))
    ensures Run(env) == Run(env.(repoStored := repoStored, repoAnswersOnLoad := a1, repoAnswers := a2))
  {
  }

  /** A push still loads the global configuration with auto-initialization:
      with nothing configured, the initialization's prompts run first and a
      cancelled one stops the push before the repository is opened. */
  lemma PushInitializesGlobalFirst(env: Env)
    requires env.args == Ok(Push) && WellFormed(env) && env.globalStored == Ok(Unset)
    requires Setup.InitConfig(Some(Unset), env.globalAnswers.host, env.globalAnswers.user, env.globalAnswers.token, env.urlParse).Err?
    ensures Run(env).result.Err? && Run(env).result.error.ConfigFailure?
    ensures Run(env).repo.None? && Run(env).pushed.None?
  {
  }

  /** A start outside any repository fails with the discovery error before any
      repository configuration is loaded. */
  lemma StartNeedsRepository(env: Env)
    requires env.args.Ok? && env.args.value.Start? && WellFormed(env) && env.found.None?
    requires env.globalStored.Ok? && env.globalStored.value.IsSet()
    ensures Run(env) == RunOutcome(Err(GitFailure(Git.CannotOpenRepository)), [], [], None, None)
  {
  }

  /** The init command outside any repository initializes the global scope
      only, and the missing repository is not an error. */
  lemma InitSkipsMissingRepository(env: Env)
    requires env.args == Ok(Init) && WellFormed(env) && env.found.None?
    requires env.globalStored.Ok?
    ensures var initialized := CommandInitConfig(env.globalStored.value, env.globalAnswers, env.urlParse, env.globalStoreFailure);
            Run(env).result == Unit(initialized.result) && Run(env).repoSaved == []
  {
  }

  /** For the init command, a repository configuration that cannot be loaded
      is replaced by the unset one and initialized. */
  lemma InitReplacesUnloadableRepoConfig(env: Env)
    requires env.args == Ok(Init) && WellFormed(env) && env.found.Some?
    requires env.globalStored.Ok?
    requires CommandInitConfig(env.globalStored.value, env.globalAnswers, env.urlParse, env.globalStoreFailure).result.Ok?
    requires env.found.value.workdir.None? || env.repoStored.Err?
    ensures Run(env).result == Unit(CommandInitRepo(RepoUnset, env.found.value, env.repoAnswers, env.repoStoreFailure).result)
  {
  }

  /** Auto-initialization of an unset global configuration stores the unset
      value again, so every later run asks for the credentials anew. */
  lemma AutoInitNeverPersists(env: Env)
    requires env.args.Ok? && !env.args.value.Init? && WellFormed(env) && env.globalStored == Ok(Unset)
    ensures forall c :: c in Run(env).globalSaved ==> c == Unset
  {
  }
}

=== FILE: prompt.dfy ===
/** Interactive prompts (the `inquire` crate) as oracles. A prompt's behaviour
    is not modelled; what the user types is a parameter, and the rules the
    program attaches to a prompt (validators, a default answer) are applied to
    it. */
module Prompt {
  import opened Wrappers

  /** `inquire::InquireError`, opaque: a prompt cancelled or interrupted by
      the user, a terminal that is not interactive or closed, a bad prompt. */
  datatype InquireError = InquireError(message: string)

  /** One run of a text prompt: the lines the user submits, in order, and how
      the prompt ends (cancel, interrupt, closed terminal) if none of them is
      accepted. */
  datatype TextSession = TextSession(attempts: seq<string>, end: InquireError)

  /** The answer a submitted line stands for: an empty line takes the prompt's
      default when it has one. */
  function Effective(default: Option<string>, typed: string): (answer: string)
    ensures typed != "" ==> answer == typed
    ensures typed == "" && default.None? ==> answer == ""
    ensures typed == "" && default.Some? ==> answer == default.value
  {
    if typed == "" && default.Some? then default.value else typed
  }

  /** A text prompt with validators `accept` and an optional default: a
      rejected line is asked again, the first accepted answer is returned. */
  function AskText(default: Option<string>, accept: string -> bool, session: TextSession): (r: Result<string, InquireError>)
    ensures r.Ok? ==> accept(r.value)
    ensures r.Ok? ==> r.value in session.attempts || (default.Some? && r.value == default.value)
    ensures r.Err? <==> forall i :: 0 <= i < |session.attempts| ==> !accept(Effective(default, session.attempts[i]))
    ensures r.Err? ==> r.error == session.end
    decreases |session.attempts|
  {
    if |session.attempts| == 0 then Err(session.end)
    else
      var answer := Effective(default, session.attempts[0]);
      if accept(answer) then Ok(answer)
      else
        var rest := AskText(default, accept, TextSession(session.attempts[1..], session.end));
        assert forall i :: 1 <= i < |session.attempts| ==> session.attempts[i] == session.attempts[1..][i - 1];
        rest
  }

  /** The first submitted line decides the answer when it is accepted. */
  lemma AskTextFirstAccepted(default: Option<string>, accept: string -> bool, typed: string, more: seq<string>, end: InquireError)
    requires accept(Effective(default, typed))
    ensures AskText(default, accept, TextSession([typed] + more, end)) == Ok(Effective(default, typed))
  {
  }

  /** A rejected line is as if it had never been typed. */
  lemma AskTextSkipsRejected(default: Option<string>, accept: string -> bool, typed: string, more: seq<string>, end: InquireError)
    requires !accept(Effective(default, typed))
    ensures AskText(default, accept, TextSession([typed] + more, end)) == AskText(default, accept, TextSession(more, end))
  {
    assert ([typed] + more)[1..] == more;
  }
}

=== FILE: setup.dfy ===
/** Interactive initialization of src/init.rs: the preference order of branch
    names offered as base branch, and the shapes of the global and repository
    configurations the initialization flows build from prompt answers. */
module Setup {
  import opened Wrappers
  import opened Prompt
  import opened Configuration
  import Jira

  datatype Ordering = Less | Equal | Greater

  /** Rust's `str::cmp`: lexicographic by character (UTF-8 byte order and
      code-point order agree), a proper prefix first. */
  function LexCmp(a: string, b: string): Ordering
    decreases |a|
  {
    if |a| == 0 then (if |b| == 0 then Equal else Less)
    else if |b| == 0 then Greater
    else if a[0] < b[0] then Less
    else if a[0] > b[0] then Greater
    else LexCmp(a[1..], b[1..])
  }

  /** The three names the comparator prefers over all others. */
  predicate Privileged(name: string)
  {
    name == "develop" || name == "main" || name == "master"
  }

  /** The comparator of `sort_branches`, arm by arm. It is not an order:
      it answers `Less` for ("main", "master") and for ("master", "main"),
      and for two equal privileged names. */
  function BranchCmp(a: string, b: string): (o: Ordering)
    ensures Rank(a) < Rank(b) ==> o == Less
    ensures Rank(a) > Rank(b) ==> o == Greater
    ensures Rank(a) == Rank(b) < 2 ==> o == Less
    ensures Rank(a) == Rank(b) == 2 ==> o == LexCmp(a, b)
  {
    if a == "develop" && (b == "main" || b == "master") then Less
    else if (a == "main" || a == "master") && b == "develop" then Greater
    else if Privileged(a) then Less
    else if Privileged(b) then Greater
    else LexCmp(a, b)
  }

  /** The preference tier of a name: "develop", then "main"/"master", then the rest. */
  function Rank(name: string): nat
  {
    if name == "develop" then 0 else if name == "main" || name == "master" then 1 else 2
  }

  /** `a` may stand before `b`: the comparator does not put `a` after `b`. */
  predicate NotAfter(a: string, b: string)
  {
    BranchCmp(a, b) != Greater
  }

  /** No element is put after one that follows it. */
  ghost predicate Sorted(s: seq<string>)
  {
    forall i, j :: 0 <= i < j < |s| ==> NotAfter(s[i], s[j])
  }

  lemma {:induction false} LexEqual(a: string, b: string)
    ensures LexCmp(a, b) == Equal <==> a == b
    decreases |a|
  {
    if |a| > 0 && |b| > 0 && a[0] == b[0] {
      LexEqual(a[1..], b[1..]);
      assert a == [a[0]] + a[1..] && b == [b[0]] + b[1..];
    }
  }

  lemma {:induction false} LexFlip(a: string, b: string)
    ensures LexCmp(a, b) == Less <==> LexCmp(b, a) == Greater
    decreases |a|
  {
    if |a| > 0 && |b| > 0 && a[0] == b[0] {
      LexFlip(a[1..], b[1..]);
    }
  }

  lemma {:induction false} LexTransitive(a: string, b: string, c: string)
    requires LexCmp(a, b) != Greater && LexCmp(b, c) != Greater
    ensures LexCmp(a, c) != Greater
    decreases |a|
  {
    if |a| > 0 && |b| > 0 && |c| > 0 && a[0] == b[0] && b[0] == c[0] {
      LexTransitive(a[1..], b[1..], c[1..]);
    }
  }

  /** The comparator read as tiers: a lower tier comes first, inside the first
      two tiers anything goes, and the last tier is lexicographic. */
  lemma NotAfterByRank(a: string, b: string)
    ensures NotAfter(a, b) <==>
              Rank(a) < Rank(b) || (Rank(a) == Rank(b) && (Rank(a) < 2 || LexCmp(a, b) != Greater))
  {
  }

  lemma NotAfterTotal(a: string, b: string)
    ensures NotAfter(a, b) || NotAfter(b, a)
  {
    NotAfterByRank(a, b);
    NotAfterByRank(b, a);
    LexFlip(a, b);
  }

  lemma NotAfterReflexive(a: string)
    ensures NotAfter(a, a)
  {
    NotAfterTotal(a, a);
  }

  lemma NotAfterTransitive(a: string, b: string, c: string)
    requires NotAfter(a, b) && NotAfter(b, c)
    ensures NotAfter(a, c)
  {
    NotAfterByRank(a, b);
    NotAfterByRank(b, c);
    NotAfterByRank(a, c);
    if Rank(a) == 2 && Rank(b) == 2 && Rank(c) == 2 {
      LexTransitive(a, b, c);
    }
  }

  /** Two names that may each stand before the other are equal, or are
      "main" and "master". */
  lemma NotAfterAntisymmetric(a: string, b: string)
    requires NotAfter(a, b) && NotAfter(b, a)
    ensures a == b || (a == "main" && b == "master") || (a == "master" && b == "main")
  {
    NotAfterByRank(a, b);
    NotAfterByRank(b, a);
    if Rank(a) == 2 {
      LexFlip(a, b);
      LexEqual(a, b);
    }
  }

  /** Inserts `x` before the first element it may stand before. */
  function Insert(x: string, s: seq<string>): (r: seq<string>)
    requires Sorted(s)
    ensures multiset(r) == multiset(s) + multiset{x}
    ensures Sorted(r)
  {
    if s == [] || NotAfter(x, s[0]) then
      assert forall j :: 0 < j < |s| ==> NotAfter(s[0], s[j]);
      forall j | 0 < j < |s| ensures NotAfter(x, s[j]) {
        NotAfterTransitive(x, s[0], s[j]);
      }
      [x] + s
    else
      NotAfterTotal(x, s[0]);
      var rest := Insert(x, s[1..]);
      assert s == [s[0]] + s[1..];
      forall j | 0 <= j < |rest| ensures NotAfter(s[0], rest[j]) {
        assert rest[j] in multiset(rest);
        if rest[j] != x {
          assert rest[j] in multiset(s[1..]);
          var k :| 0 <= k < |s[1..]| && s[1..][k] == rest[j];
          assert s[k + 1] == rest[j];
        }
      }
      [s[0]] + rest
  }

  /** `sort_branches`: the branch names, privileged ones first. */
  function SortBranches(branches: seq<string>): (r: seq<string>)
    ensures multiset(r) == multiset(branches)
    ensures |r| == |branches|
    ensures Sorted(r)
  {
    if branches == [] then []
    else
      var r := Insert(branches[0], SortBranches(branches[1..]));
      assert branches == [branches[0]] + branches[1..];
      assert |r| == |multiset(r)|;
      r
  }

  /** "develop" comes before "main" and "master". */
  lemma DevelopFirst(branches: seq<string>, i: int, j: int)
    requires var r := SortBranches(branches);
             0 <= i < |r| && 0 <= j < |r| && r[i] == "develop" && (r[j] == "main" || r[j] == "master")
    ensures i < j
  {
  }

  /** Every privileged name comes before every other name. */
  lemma PrivilegedFirst(branches: seq<string>, i: int, j: int)
    requires var r := SortBranches(branches);
             0 <= i < |r| && 0 <= j < |r| && Privileged(r[i]) && !Privileged(r[j])
    ensures i < j
  {
  }

  /** The other names are in ascending lexicographic order. */
  lemma OthersAscending(branches: seq<string>, i: int, j: int)
    requires var r := SortBranches(branches);
             0 <= i < j < |r| && !Privileged(r[i]) && !Privileged(r[j])
    ensures LexCmp(SortBranches(branches)[i], SortBranches(branches)[j]) != Greater
  {
  }

  /** The first element of a sorted list may stand before every element. */
  lemma HeadNotAfter(a: seq<string>, x: string)
    requires Sorted(a) && x in a
    ensures NotAfter(a[0], x)
  {
    var k :| 0 <= k < |a| && a[k] == x;
    if k == 0 { NotAfterReflexive(x); }
  }

  lemma MultisetTail(a: seq<string>)
    requires |a| > 0
    ensures multiset(a[1..]) == multiset(a) - multiset{a[0]}
  {
    assert a == [a[0]] + a[1..];
  }

  /** Two sorted permutations of one list start with the same name, unless
      that list holds both "main" and "master". */
  lemma SortedHeadsEqual(a: seq<string>, b: seq<string>)
    requires |a| > 0 && multiset(a) == multiset(b) && Sorted(a) && Sorted(b)
    requires !("main" in a && "master" in a)
    ensures |b| > 0 && a[0] == b[0]
  {
    assert a[0] in multiset(b);
    assert b[0] in multiset(a);
    HeadNotAfter(b, a[0]);
    HeadNotAfter(a, b[0]);
    NotAfterAntisymmetric(a[0], b[0]);
  }

  /** No list of names has two sorted permutations, unless it holds both
      "main" and "master". */
  lemma {:induction false} SortedPermutationUnique(a: seq<string>, b: seq<string>)
    requires multiset(a) == multiset(b) && Sorted(a) && Sorted(b)
    requires !("main" in a && "master" in a)
    ensures a == b
    decreases |a|
  {
    assert |a| == |multiset(a)| == |multiset(b)| == |b|;
    if |a| > 0 {
      SortedHeadsEqual(a, b);
      MultisetTail(a);
      MultisetTail(b);
      assert !("main" in a[1..] && "master" in a[1..]) by {
        assert forall y :: y in a[1..] ==> y in a;
      }
      SortedPermutationUnique(a[1..], b[1..]);
      assert a == [a[0]] + a[1..] && b == [b[0]] + b[1..];
    }
  }

  /** The sort is the only sorted permutation of its input, when the input
      does not hold both "main" and "master". */
  lemma SortBranchesUnique(branches: seq<string>, t: seq<string>)
    requires multiset(t) == multiset(branches) && Sorted(t)
    requires !("main" in branches && "master" in branches)
    ensures t == SortBranches(branches)
  {
    var r := SortBranches(branches);
    assert forall y :: y in r <==> y in multiset(branches);
    SortedPermutationUnique(r, t);
  }

  /** What a stable sort guarantees under a consistent comparator: no element
      compares `Less` than one placed before it. */
  ghost predicate LessSorted(s: seq<string>)
  {
    forall i, j :: 0 <= i < j < |s| ==> BranchCmp(s[j], s[i]) != Less
  }

  /** The comparator cannot order "main" against "master": each compares
      `Less` than the other, so both orders are sorted in the comparator's
      weak sense and neither in the stable-sort sense. */
  lemma MainMasterUnordered()
    ensures BranchCmp("main", "master") == Less && BranchCmp("master", "main") == Less
    ensures Sorted(["main", "master"]) && Sorted(["master", "main"])
    ensures !LessSorted(["main", "master"]) && !LessSorted(["master", "main"])
  {
    assert BranchCmp(["main", "master"][1], ["main", "master"][0]) == Less;
    assert BranchCmp(["master", "main"][1], ["master", "main"][0]) == Less;
  }

  /** The unit test `test_sort_branch` (src/init.rs:111-117). */
  lemma SortBranchesPlain()
    ensures SortBranches(["d", "b", "a", "c"]) == ["a", "b", "c", "d"]
  {
    SortExample(["d", "b", "a", "c"], ["a", "b", "c", "d"]);
  }

  /** The unit test `test_sort_branch_master_first` (src/init.rs:119-125). */
  lemma SortBranchesMasterFirst()
    ensures SortBranches(["d", "master", "a", "c"]) == ["master", "a", "c", "d"]
  {
    SortExample(["d", "master", "a", "c"], ["master", "a", "c", "d"]);
  }

  /** The unit test `test_sort_branch_main_first` (src/init.rs:127-133). */
  lemma SortBranchesMainFirst()
    ensures SortBranches(["d", "main", "a", "c"]) == ["main", "a", "c", "d"]
  {
    SortExample(["d", "main", "a", "c"], ["main", "a", "c", "d"]);
  }

  /** The unit test `test_sort_branch_dev_main_first` (src/init.rs:135-141). */
  lemma SortBranchesDevelopMainFirst()
    ensures SortBranches(["main", "develop", "a", "c"]) == ["develop", "main", "a", "c"]
  {
    SortExample(["main", "develop", "a", "c"], ["develop", "main", "a", "c"]);
  }

  /** A four-name example: the expected list is sorted, is a permutation of
      the input, and so is the sort's answer. */
  lemma SortExample(input: seq<string>, expected: seq<string>)
    requires |input| == 4 && |expected| == 4
    requires !("main" in input && "master" in input)
    requires multiset(expected) == multiset(input)
    requires NotAfter(expected[0], expected[1]) && NotAfter(expected[1], expected[2]) && NotAfter(expected[2], expected[3])
    ensures SortBranches(input) == expected
  {
    forall i, j | 0 <= i < j < 4 ensures NotAfter(expected[i], expected[j]) {
      if j >= i + 2 { NotAfterTransitive(expected[i], expected[i + 1], expected[i + 2]); }
      if j == i + 3 { NotAfterTransitive(expected[i], expected[i + 2], expected[i + 3]); }
    }
    SortBranchesUnique(input, expected);
  }

  /** The tracker section of an optional old configuration, offered as defaults. */
  function OldJira(previous: Option<Config>): Option<JiraConfig>
  {
    if previous.Some? then previous.value.jira else None
  }

  /** `unwrap_or_default` of an old field: the empty string when there is none. */
  function OldHost(previous: Option<Config>): string
  {
    if OldJira(previous).Some? then OldJira(previous).value.host else ""
  }

  function OldUser(previous: Option<Config>): string
  {
    if OldJira(previous).Some? then OldJira(previous).value.user else ""
  }

  /** `init_config` (and the identical `Config::init`): ask host, user name and
      token, each validated; host and user offer the old values as defaults,
      the token is never prefilled. */
  function InitConfig(previous: Option<Config>, host: TextSession, user: TextSession, token: TextSession,
                      urlParse: string -> Option<Jira.ParseError>): (r: Result<Config, ConfigError>)
    ensures r.Ok? ==> r.value.IsSet() && Validated(urlParse, r.value.jira.value)
    ensures r.Ok? ==> var j := r.value.jira.value;
                      j.host != "" && |j.user| >= MinLength && |j.token| >= MinLength
    ensures r.Ok? ==> var j := r.value.jira.value;
                      && (j.host in host.attempts || j.host == OldHost(previous))
                      && (j.user in user.attempts || j.user == OldUser(previous))
                      && j.token in token.attempts
    // success exactly when each prompt gets a line it accepts
    ensures r.Ok? <==>
              && (exists i :: 0 <= i < |host.attempts| && HostAccepted(urlParse, Effective(Some(OldHost(previous)), host.attempts[i])))
              && (exists i :: 0 <= i < |user.attempts| && CredentialAccepted(Effective(Some(OldUser(previous)), user.attempts[i])))
              && (exists i :: 0 <= i < |token.attempts| && CredentialAccepted(Effective(None, token.attempts[i])))
    ensures r.Err? ==> r.error in {FromInquire(host.end), FromInquire(user.end), FromInquire(token.end)}
    // the first prompt without an accepted line ends the initialization with its own error
    ensures (forall i :: 0 <= i < |host.attempts| ==> !HostAccepted(urlParse, Effective(Some(OldHost(previous)), host.attempts[i])))
            ==> r == Err(FromInquire(host.end))
    ensures && (exists i :: 0 <= i < |host.attempts| && HostAccepted(urlParse, Effective(Some(OldHost(previous)), host.attempts[i])))
            && (forall i :: 0 <= i < |user.attempts| ==> !CredentialAccepted(Effective(Some(OldUser(previous)), user.attempts[i])))
            ==> r == Err(FromInquire(user.end))
    ensures && (exists i :: 0 <= i < |host.attempts| && HostAccepted(urlParse, Effective(Some(OldHost(previous)), host.attempts[i])))
            && (exists i :: 0 <= i < |user.attempts| && CredentialAccepted(Effective(Some(OldUser(previous)), user.attempts[i])))
            && (forall i :: 0 <= i < |token.attempts| ==> !CredentialAccepted(Effective(None, token.attempts[i])))
            ==> r == Err(FromInquire(token.end))
  {
    match AskText(Some(OldHost(previous)), (h: string) => HostAccepted(urlParse, h), host)
    case Err(e) => Err(FromInquire(e))
    case Ok(h) =>
      match AskText(Some(OldUser(previous)), CredentialAccepted, user)
      case Err(e) => Err(FromInquire(e))
      case Ok(u) =>
        match AskText(None, CredentialAccepted, token)
        case Err(e) => Err(FromInquire(e))
        case Ok(t) => Ok(Config(Some(JiraConfig(h, u, t))))
  }

  /** `Config::init` builds the same value: whatever it returns is set. */
  lemma ConfigInitIsSet(previous: Option<Config>, host: TextSession, user: TextSession, token: TextSession,
                        urlParse: string -> Option<Jira.ParseError>)
    requires host.attempts != [] && HostAccepted(urlParse, Effective(Some(OldHost(previous)), host.attempts[0]))
    requires user.attempts != [] && CredentialAccepted(Effective(Some(OldUser(previous)), user.attempts[0]))
    requires token.attempts != [] && CredentialAccepted(token.attempts[0])
    ensures InitConfig(previous, host, user, token, urlParse).Ok?
    ensures InitConfig(previous, host, user, token, urlParse).value.IsSet()
  {
    assert host.attempts == [host.attempts[0]] + host.attempts[1..];
    assert user.attempts == [user.attempts[0]] + user.attempts[1..];
    assert token.attempts == [token.attempts[0]] + token.attempts[1..];
    AskTextFirstAccepted(Some(OldHost(previous)), (h: string) => HostAccepted(urlParse, h), host.attempts[0], host.attempts[1..], host.end);
    AskTextFirstAccepted(Some(OldUser(previous)), CredentialAccepted, user.attempts[0], user.attempts[1..], user.end);
    AskTextFirstAccepted(None, CredentialAccepted, token.attempts[0], token.attempts[1..], token.end);
  }

  /** Pressing enter at the host and user prompts keeps a valid old host and
      user; the token must be typed again. */
  lemma InitConfigKeepsOldOnEnter(previous: Config, hosts: seq<string>, users: seq<string>, token: TextSession,
                                  ends: InquireError, urlParse: string -> Option<Jira.ParseError>)
    requires previous.jira.Some? && Validated(urlParse, previous.jira.value)
    requires CredentialAccepted(previous.jira.value.token) && token.attempts == [previous.jira.value.token]
    ensures InitConfig(Some(previous), TextSession([""] + hosts, ends), TextSession([""] + users, ends), token, urlParse)
            == Ok(Config(Some(previous.jira.value)))
  {
    AskTextFirstAccepted(Some(OldHost(Some(previous))), (h: string) => HostAccepted(urlParse, h), "", hosts, ends);
    AskTextFirstAccepted(Some(OldUser(Some(previous))), CredentialAccepted, "", users, ends);
    AskTextFirstAccepted(None, CredentialAccepted, previous.jira.value.token, [], ends);
    assert [previous.jira.value.token] + [] == token.attempts;
  }

  /** An empty line never stands for a token: it is rejected and asked again. */
  lemma InitConfigTokenNeverPrefilled(previous: Option<Config>, host: TextSession, user: TextSession,
                                      more: seq<string>, end: InquireError, urlParse: string -> Option<Jira.ParseError>)
    ensures InitConfig(previous, host, user, TextSession([""] + more, end), urlParse)
            == InitConfig(previous, host, user, TextSession(more, end), urlParse)
  {
    AskTextSkipsRejected(None, CredentialAccepted, "", more, end);
  }

  /** `init_repo_config`: offer the branch names in preference order and keep
      the one picked. `pick` is the Select prompt's answer, an index into the
      list it shows. */
  function InitRepoConfig(previous: Option<RepoConfig>, branches: seq<string>, pick: Result<nat, InquireError>): (r: Result<RepoConfig, ConfigError>)
    requires pick.Ok? ==> pick.value < |branches|
    ensures r.Ok? <==> pick.Ok?
    ensures r.Ok? ==> r.value.IsSet() && r.value.branches.value.dev == SortBranches(branches)[pick.value]
    ensures r.Ok? ==> r.value.branches.value.dev in branches
    ensures r.Err? ==> r.error == FromInquire(pick.error)
  {
    var sorted := SortBranches(branches);
    match pick
    case Err(e) => Err(FromInquire(e))
    case Ok(i) =>
      assert sorted[i] in multiset(sorted);
      Ok(RepoConfig(Some(BranchesName(sorted[i]))))
  }
}

=== FILE: strings.dfy ===
/** Substring containment and suffixes, used to state what an error message mentions. */
module Strings {

  /** True iff `needle` starts at position `k` of `hay`. */
  predicate OccursAt(hay: string, needle: string, k: nat)
  {
    k + |needle| <= |hay| && hay[k..k + |needle|] == needle
  }

  /** True iff `needle` occurs somewhere inside `hay`. */
  ghost predicate Contains(hay: string, needle: string)
  {
    exists k: nat :: OccursAt(hay, needle, k)
  }

  /** True iff `hay` ends with `suffix`. */
  predicate EndsWith(hay: string, suffix: string)
  {
    |suffix| <= |hay| && hay[|hay| - |suffix|..] == suffix
  }

  /** Text put in front of a string keeps every occurrence inside it. */
  lemma ContainsExtends(prefix: string, hay: string, needle: string)
    requires Contains(hay, needle)
    ensures Contains(prefix + hay, needle)
  {
    var k: nat :| OccursAt(hay, needle, k);
    assert (prefix + hay)[|prefix| + k..|prefix| + k + |needle|] == hay[k..k + |needle|];
    assert OccursAt(prefix + hay, needle, |prefix| + k);
  }

  /** A string occurs in any concatenation that places it at a known offset. */
  lemma ContainsAt(prefix: string, needle: string, suffix: string)
    ensures Contains(prefix + needle + suffix, needle)
  {
    var hay := prefix + needle + suffix;
    assert hay[|prefix|..|prefix| + |needle|] == needle;
    assert OccursAt(hay, needle, |prefix|);
  }
}

=== FILE: wrappers.dfy ===
/** Rust's `Option` and `Result`, the two shapes every fallible call of the
    program returns. */
module Wrappers {

  datatype Option<+T> = None | Some(value: T)

  datatype Result<+T, +E> = Ok(value: T) | Err(error: E)
}
